=== FILE: README.md ===
# Face-attendance kiosk: a Dafny model of its sequential core

The repository is a small face-recognition attendance kiosk. It has three parts:

- a browser page, `static/js/script.js`, that captures webcam frames and talks to two JSON endpoints;
- a Flask server, `app.py`, that embeds faces, keeps the registered students in memory and writes an attendance CSV;
- a helper script, `split.py`, that cuts the large model weights file into parts. `stitch_model` in `app.py` glues the parts back together at start-up.

This project models the decisions these three parts make, as pure functions over immutable datatypes, and proves properties about them.

| file | module | what it models |
|---|---|---|
| base.dfy | `Base` | `Option`, bytes, and decimal rendering of part numbers |
| text_fields.dfy | `TextFields` | splitting a data URL at its first comma; the name field of `info.txt` |
| attendance_log.dfy | `AttendanceLog` | `mark_attendance_csv`: once-per-student-per-day dedup over CSV rows, as written (through pandas dtype inference) and corrected (RegNo as text) |
| recognition.dfy | `Recognition` | `load_known_faces`, nearest-neighbour selection and `api_mark_attendance` |
| registration.dfy | `Registration` | `api_register`: validation, per-image detection, saving one folder per student |
| lex_order.dfy | `LexOrder` | Python's `str` ordering, which `sorted` uses |
| chunking.dfy | `Chunking` | `split_file`: fixed-size chunks named `<path>.part<k>` |
| stitching.dfy | `Stitching` | `stitch_model`: glob, sort and concatenate parts; a corrected stitcher that opens parts by number |
| controller.dfy | `Controller` | `script.js` as an event-driven state machine (`Step`) |
| controller_properties.dfy | `ControllerProperties` | capture runs, submission, replies, stopping, the double-capture overflow and the attendance-restart leak |

## How the model is built

- **Browser controller.** The state holds five things:
  - the camera stream;
  - `capturedImages`;
  - `attendanceInterval`;
  - a map of live timer handles to their callback;
  - the visible status, progress and submit flag.

  Each capture interval's closure carries its own `count`, exactly as in the JavaScript. Button presses, timer ticks, camera-permission results and fetch completions are `Event`s. `Step` returns the next state together with the effects the page performs: requests, alerts, navigation, and stopping tracks. Frames are opaque strings supplied by the tick that samples them. Server replies are inputs, including an exception case.
- **Server.** Dates, times and registration numbers are opaque strings. The CSV is a sequence of `Row`s, and a missing file is `None`. Face detection, the embedding distance and the mean of embeddings are function parameters. Distances are `real`s compared against the threshold 0.8.
- **Files.** Files are byte sequences. A directory listing is a sequence of `Part(name, data)`.

- **Constants and behaviours taken from the code.**
  - A capture run takes 50 frames, one every 100 ms.
  - A match resets the status after 2000 ms.
  - `submitRegistration` never disables the submit button. Once enabled, the button stays enabled (`ControllerProperties.SubmitStaysEnabled`).
  - `submitRegistration` does not check `response.ok`. A JSON body with a non-2xx status is handled like any other body (`ControllerProperties.RegisterIgnoresHttpStatus`).
  - `startAttendance` does not cancel a running attendance interval before starting a new one, and `captureFaces` does not cancel a running capture interval (see Findings).
  - The register payload carries `name`, `reg_no`, `department` and `images`, and nothing else.

## Model

| member | source | states |
|---|---|---|
| Base.ParseRendered | split.py:25 | the decimal text of a part number reads back as that number |
| Base.NatToStringInjective | split.py:25 | distinct part numbers render as distinct texts |
| TextFields.CommaIndex | app.py:290 | absent exactly when the string has no comma; otherwise it is the position of the first comma |
| TextFields.StripHeader | app.py:290-291 | with no comma the whole string is the payload; otherwise the payload is the suffix after the first comma |
| TextFields.SplitAtFirstComma | app.py:332-333 | a string with a comma is header + "," + payload, and the header has no comma |
| TextFields.JoinThenSplit | app.py:290-291 | for a comma-free header, `header,payload` splits back into exactly that header and payload |
| TextFields.FirstField | app.py:222-223 | `split(',')[0]`: the prefix before the first comma, or the whole text when there is none |
| TextFields.CommaInHeaderIsCut | app.py:222-223 | a name containing a comma does not survive being written as `name,reg_no` and read back |
| AttendanceLog.AlreadyPresent | app.py:245 | the duplicate filter over text cells, the intended reading: true exactly when some row has this RegNo on this date |
| AttendanceLog.MarkAttendanceCsv | app.py:236-261 | the corrected dedup, reading RegNo as text: appends iff no row has the same RegNo and date; an append adds `(date, time, name, reg_no, 'Present')` at the end and keeps every earlier row as it was; otherwise the rows are unchanged; a missing file counts as empty |
| AttendanceLog.MarkPreservesOncePerDay | app.py:245-259 | marking keeps "at most one row per student per day", grows the log by at most one row and keeps every prior row |
| AttendanceLog.MarkTwiceSameDay | app.py:245-261 | two marks of one student on one date add at most one row, and the second returns False |
| AttendanceLog.RegNoColumn | app.py:241 | `read_csv` turns the RegNo column into integers when every value is numeric, each cell holding the number its digits denote, and keeps the text otherwise |
| AttendanceLog.WrittenBack | app.py:241-258 | `to_csv` after `read_csv`: every column but RegNo is kept; with a non-numeric RegNo on the sheet nothing changes; with an all-digit column each RegNo is rewritten as the decimal text of its number |
| AttendanceLog.WrittenBackSameNumber | app.py:241-258 | a rewritten all-digit RegNo still denotes the same number |
| AttendanceLog.MarkAttendanceAsRead | app.py:236-261 | the function as written: appends iff no row compares equal after dtype inference; an append writes the earlier rows back through the inferred dtype and adds the new row at the end; otherwise the rows are unchanged |
| AttendanceLog.LeadingZerosDropped | app.py:241-258 | a RegNo "0123" written first is rewritten as "123" when a second student is marked on the same sheet |
| AttendanceLog.AsReadAgreesOnTextColumn | app.py:241-245 | while some RegNo is non-numeric, the as-read dedup agrees with the text comparison |
| AttendanceLog.NumericRegNoMarkedTwice | app.py:241-247 | the same all-digit RegNo marked twice on one day is appended twice, breaking once-per-day |
| Recognition.LoadableEntries | app.py:206-214 | keeps only directory entries that have both an embedding and an info file, and no more of them than the listing has |
| Recognition.LoadableEntriesComplete | app.py:206-214 | every loadable entry of the listing is kept, as often as it is listed, and nothing else is |
| Recognition.LoadableEntriesAppend | app.py:206-214 | entries are kept in listing order: the kept entries of a joined listing are the kept entries of each part, one after the other |
| Recognition.LoadKnownFaces | app.py:190-223 | starts from empty lists; with no dataset folder they stay empty; the three lists have equal length, one entry per loadable folder, pairing its embedding, folder name as RegNo, and first `info.txt` field as name |
| Recognition.MinDistance | app.py:356 | `min`: an element of the list that is no larger than any element |
| Recognition.IndexOf | app.py:357 | `list.index`: the first position holding the value |
| Recognition.Distances | app.py:351-354 | one distance per known embedding, in the same order |
| Recognition.SelectMatch | app.py:346-373 | no known faces means no match; a match happens iff some distance is below 0.8; it returns the name and RegNo at the first index of the minimum |
| Recognition.MarkAttendanceApi | app.py:325-373 | a missing or empty image is a 400 error; an image that cannot be decoded crashes with its reason; no face gives `{"match": False}`; for a face, the reply is the selection over the distances; a match marks the sheet through `mark_attendance_csv` as written; without a match the sheet is unchanged |
| Recognition.RepeatedMatchesMarkOnce | app.py:360-365 | while some RegNo on the sheet is not all digits, the same frame matched twice on one day writes at most one attendance row |
| Recognition.NumericRosterMarkedTwice | app.py:360-365 | a student with RegNo "21001" recognised twice on one day from an empty sheet gets two rows |
| Registration.Collect | app.py:289-300 | a failed collection carries the reason of the first image that could not be decoded |
| Registration.CollectFailsIffUndecodable | app.py:289-300 | the loop raises exactly when some image cannot be decoded |
| Registration.CollectKeepsFaces | app.py:297-302 | no embeddings iff every image has no face; every embedding comes from a detected face |
| Registration.Detections | app.py:289-297 | one detection per image, in image order |
| Registration.FacesAppend | app.py:297-300 | the faces of two joined runs of detections are the faces of each, one after the other |
| Registration.CollectEmbedsEveryFace | app.py:287-302 | when every image decodes, the embeddings are exactly the detected faces, one per face image, in image order |
| Registration.RegisterApi | app.py:273-319 | missing name, reg_no or images gives 400 "Missing data" with the dataset untouched; otherwise the student folder is created and other folders are unchanged; success iff at least one face is embedded, and then the folder holds the mean embedding and `name,reg_no` and the reply says `Registered <name>!`; no face gives 400, an undecodable image gives 500 with its reason |
| Registration.RegisteredStudentReloads | app.py:306-313 | a registered student's folder is loadable, and reloading recovers the name iff the name has no comma |
| LexOrder.LessIrreflexive | app.py:135 | no string sorts before itself |
| LexOrder.LessAsymmetric | app.py:135 | two strings never sort before each other |
| LexOrder.LessTransitive | app.py:135 | string order is transitive |
| LexOrder.LessTotal | app.py:135 | of two distinct strings, one sorts first |
| LexOrder.LessCommonPrefix | app.py:135 | a shared prefix does not change the order |
| Chunking.SplitFile | split.py:11-30 | a missing file writes nothing; otherwise part i+1 is named `<path>.part<i+1>` and holds chunk i |
| Chunking.DegenerateChunkSizes | split.py:20-23 | `read(0)` ends the loop at once and writes no parts; a negative size reads the whole file as one part |
| Chunking.ChunksConcatenate | split.py:19-27 | concatenating the chunks gives the original bytes |
| Chunking.ChunkSizes | split.py:19-27 | every chunk but the last has exactly chunk_size bytes; the last is non-empty and at most chunk_size |
| Chunking.ChunkCount | split.py:17-30 | the part count k is ceil(size / chunk_size), that is size <= k*chunk_size < size + chunk_size; an empty file gives none |
| Chunking.ChunkContents | split.py:19-27 | chunk i is the byte range `[i*chunk_size, min((i+1)*chunk_size, size))` |
| Chunking.SplitThenJoin | split.py:19-30 | joining the parts in part-number order gives back the file |
| Chunking.JoinIsFlatten | app.py:141-144 | writing the parts one after another writes the concatenation of their contents |
| Stitching.Glob | app.py:135 | the glob keeps exactly the listed files whose name starts with `<path>.part` |
| Stitching.SortByNamePermutes | app.py:135 | `sorted` is a permutation of the globbed names |
| Stitching.SortByNameOrders | app.py:135 | `sorted` output is in non-decreasing name order |
| Stitching.SortedArrangementUnique | app.py:135 | with distinct names there is only one sorted arrangement, so the result does not depend on the listing order |
| Stitching.StitchModel | app.py:122-146 | nothing happens when the model file exists or no part exists; otherwise the bytes written are the contents of the globbed parts, each exactly once, concatenated in non-decreasing name order |
| Stitching.StitchFound | app.py:135-144 | with at least one part found, the bytes written are the sorted globbed parts' contents, joined |
| Stitching.FewPartsInNameOrder | split.py:25 | with at most 9 parts, name order is part-number order |
| Stitching.SortedGlobIsParts | app.py:135 | with at most 9 parts, `sorted(glob(...))` over a listing whose globbed files are the split parts yields them in part order |
| Stitching.SplitThenStitch | app.py:129-144 | for at most 9 parts, any listing whose globbed files are exactly the split parts, in any order and with any unrelated files, is stitched back into the file |
| Stitching.TenPartsMisordered | app.py:135-144 | ten one-byte parts are stitched as part1, part10, part2, …, so the second output byte is wrong |
| Stitching.FindPart | app.py:143 | finds the listed file with a given name, or reports that there is none |
| Stitching.StitchInOrder | app.py:122-146 | corrected stitch that opens parts by number: nothing when the model exists or part1 is missing |
| Stitching.PartNameInjective | split.py:25 | distinct part numbers give distinct part names |
| Stitching.FindSplitPart | split.py:25-27 | in a listing whose globbed files are the split parts, `.part<k>` names the k-th part |
| Stitching.NoPartPastLast | split.py:17-30 | in such a listing there is no part past the last one split wrote |
| Stitching.GatherSplitParts | split.py:17-30 | opening `.part1`, `.part2`, … in turn from any such listing yields the chunks in order |
| Stitching.SplitThenStitchInOrder | split.py:11-30 | the corrected stitcher rebuilds the file for any number of parts, from any listing whose globbed files are exactly the split parts |
| Controller.StopCamera | static/js/script.js:23-30 | with no stream nothing happens; otherwise each track of the stream is stopped, in order, and the stream is detached |
| Controller.StopCameraIdempotent | static/js/script.js:23-30 | a second stop does nothing, and the first stops exactly the stream's tracks |
| Controller.OnCameraGranted | static/js/script.js:12-16 | attaches the new stream and shows "Camera started."; nothing else changes, and a stream already attached is replaced without its tracks being stopped |
| Controller.OnCameraDenied | static/js/script.js:17-20 | shows "Error accessing camera: " and the error; nothing else changes |
| Controller.CaptureFaces | static/js/script.js:34-44 | empties the buffer, starts a 100 ms interval whose count is 0 and adds no other timer, leaves other timers alone, shows the capturing status; nothing else changes |
| Controller.CaptureTick | static/js/script.js:44-63 | at count >= 50, clears its interval, enables submit and appends nothing; otherwise appends the frame, increments its count and shows `Photos Taken: <n> / 50`; other timers and the remaining state are unchanged |
| Controller.SubmitRegistration | static/js/script.js:66-88 | with an empty name, empty reg_no or empty buffer, it alerts and changes nothing; otherwise it posts name, reg_no, department and the whole buffer |
| Controller.OnRegisterReply | static/js/script.js:90-100 | a body with status "success" alerts "Registration Successful!" and then navigates to "/", and navigation happens only then; any other body alerts `Error: <message>`; an exception sets "Upload Failed."; nothing else in the state changes |
| Controller.StartAttendance | static/js/script.js:105-110 | requests the camera, shows the scanning status, and starts a 3000 ms interval whose handle replaces `attendanceInterval` without clearing the old one; nothing else changes |
| Controller.AttendanceTick | static/js/script.js:110-124 | with no stream it does nothing; otherwise it posts the sampled frame |
| Controller.OnAttendanceReply | static/js/script.js:126-143 | a match shows `✅ Marked Present: <student>` in green and schedules a 2000 ms reset, and changes nothing else; no match or an exception changes nothing visible |
| Controller.ResetStatus | static/js/script.js:136-139 | the one-shot reset shows "Scanning..." in black and retires its own timer; other timers and the rest of the state are unchanged |
| Controller.ClearTimer | static/js/script.js:148 | `clearInterval` removes only the named handle; clearing null does nothing |
| Controller.StopAttendance | static/js/script.js:147-151 | clears the interval `attendanceInterval` names (the variable keeps its value), stops the camera, shows "System Stopped."; nothing else changes |
| ControllerProperties.StepPreservesWellFormed | static/js/script.js:44 | every live timer handle is one the browser has already handed out |
| ControllerProperties.CaptureInvPreserved | static/js/script.js:44-63 | every event keeps buffer length == count <= 50 with one capture interval, unless capture is clicked while a capture is running |
| ControllerProperties.OnlyCaptureTouchesBuffer | static/js/script.js:34-63 | only a capture click or a tick of a live capture interval changes the image buffer, the capture intervals or their counts |
| ControllerProperties.CaptureClickKeepsInv | static/js/script.js:34-44 | a capture click with no capture running leaves a single capture interval whose count equals the buffer length, at most 50 |
| ControllerProperties.CaptureTickKeepsInv | static/js/script.js:44-63 | a tick of the live capture interval keeps buffer length == count <= 50 |
| ControllerProperties.DoubleCaptureBreaksInv | static/js/script.js:34-44 | a second capture click mid-run leaves two intervals filling one buffer, and their counts disagree |
| ControllerProperties.TicksKeepOtherTimer | static/js/script.js:44-63 | ticks of one interval leave every other timer as it was |
| ControllerProperties.TwoIntervalsOverfill | static/js/script.js:44-62 | two capture intervals at count 0 over one empty buffer: 50 ticks of the first and one of the second leave 51 frames |
| ControllerProperties.DoubleCaptureOverfills | static/js/script.js:34-63 | two capture clicks, 50 ticks of the first interval and one of the second leave 51 frames in the buffer |
| ControllerProperties.ClearCaptures | static/js/script.js:34-46 | clearing every capture interval keeps exactly the other timers, unchanged |
| ControllerProperties.CaptureFacesFixed | static/js/script.js:34-44 | corrected capture click: clears a running capture interval first, so the new one is the only capture interval, and every other timer is kept |
| ControllerProperties.FixedCaptureKeepsInv | static/js/script.js:34-63 | with the corrected capture click, every event keeps buffer length == count <= 50 with one capture interval |
| ControllerProperties.FixedCaptureNeverOverfills | static/js/script.js:34-63 | with the corrected capture click, no sequence of events fills the buffer past 50 frames |
| ControllerProperties.CaptureTicksAppend | static/js/script.js:55-62 | non-terminal ticks append their frames in order and keep the count equal to the buffer length |
| ControllerProperties.DeadTicks | static/js/script.js:46 | a cleared interval's ticks change nothing |
| ControllerProperties.CaptureRunTakesFifty | static/js/script.js:35-50 | capture followed by more than 50 ticks keeps exactly the first 50 frames in order, clears the interval, enables submit and shows "Capture Complete!" |
| ControllerProperties.CaptureThenSubmit | static/js/script.js:82-87 | after a full capture run, a filled-in submit posts those 50 frames in capture order |
| ControllerProperties.SubmitRequestsIffComplete | static/js/script.js:71-88 | a request is sent iff name, reg_no and buffer are all non-empty; otherwise the state is unchanged |
| ControllerProperties.RegisterIgnoresHttpStatus | static/js/script.js:90-91 | the outcome depends only on the JSON body, not on the HTTP status |
| ControllerProperties.RegisterNavigatesIffSuccess | static/js/script.js:91-96 | navigation happens iff an outstanding request gets a body with status "success" |
| ControllerProperties.SubmitStaysEnabled | static/js/script.js:48 | no event disables the submit button once it is enabled |
| ControllerProperties.RunKeepsSubmitEnabled | static/js/script.js:48 | the submit button stays enabled over any sequence of events |
| ControllerProperties.AttendanceTickNeedsStream | static/js/script.js:111-124 | an attendance tick posts its frame iff a stream is attached |
| ControllerProperties.OnlyStartStartsLoop | static/js/script.js:105-151 | only a Start Attendance click creates an attendance interval or changes the stored handle; every other event, a reply arriving after a stop included, leaves both alone |
| ControllerProperties.GrantOrphansOldTracks | static/js/script.js:12-30 | a grant emits nothing, and a later stop stops exactly the new stream's tracks, none of the replaced stream's |
| ControllerProperties.DeniedKeepsStream | static/js/script.js:17-30 | a refused camera keeps the stream there was, so a later stop stops the same tracks |
| ControllerProperties.ReplyKeepsStream | static/js/script.js:126-143 | handling an attendance reply never touches the camera stream |
| ControllerProperties.ResetOutlivesStop | static/js/script.js:136-151 | a pending reset fires after stop and replaces "System Stopped." with "Scanning..." |
| ControllerProperties.StartStartStop | static/js/script.js:110-148 | start, start, stop clears only the second interval |
| ControllerProperties.RestartKeepsFirstLoop | static/js/script.js:105-151 | after start, start, stop the first attendance interval is still live |
| ControllerProperties.OrphanLoopPostsOnGrant | static/js/script.js:110-124 | a surviving attendance interval posts frames again once a stream is attached |
| ControllerProperties.RestartLeaksLoop | static/js/script.js:105-151 | start, start, stop leaves an interval that keeps posting frames once a camera stream arrives |
| ControllerProperties.StartAttendanceFixed | static/js/script.js:105-110 | corrected start: requests the camera, clears the interval `attendanceInterval` names, adds the new 3000 ms interval and stores its handle |
| ControllerProperties.FixedStartKeepsSingleLoop | static/js/script.js:105-110 | with the corrected start, a start click leaves exactly one attendance interval, the one the stored handle names |
| ControllerProperties.FixedStepKeepsSingleLoop | static/js/script.js:105-151 | with the corrected start, every live attendance interval is the one `attendanceInterval` names |
| ControllerProperties.FixedStopEndsLoop | static/js/script.js:147-151 | with the corrected start, stopping leaves no attendance interval |
| ControllerProperties.FixedRestartThenStop | static/js/script.js:105-151 | with the corrected start, start, start, stop leaves no attendance interval and shows "System Stopped." |

## Left out

- Browser I/O is not modelled: `getUserMedia`, canvas drawing, JPEG encoding, DOM reads and writes, `alert`, `window.location`, and `console` logging. Frames are opaque strings and UI actions are emitted effects.
- Timing is not modelled. The period of each timer is recorded, but ticks, camera results and replies are events in whatever order a trace gives them. There is no clock and no concurrency.
- `fetch` and `response.json()` are not modelled. A reply is an input: a parsed body or an exception. `result.match` is reduced to its truthiness, and `result.student` to a string or absent.
- MTCNN, InceptionResnetV1, `torch.load`, `np.linalg.norm` and `np.mean` are not modelled. Detection, distance and mean are parameters, and embeddings are sequences of reals with no floating-point rounding.
- Base64 decoding and PIL are not modelled. An image either decodes to a detection result or raises with a reason (`Undecodable`).
- pandas is modelled only as the rows it reads and writes, plus the RegNo dtype inference for plain digit strings on reading and its effect on writing back. Other inference (the Date, Time and Name columns, empty files) and CSV quoting are not modelled.
- AttendanceLog.RegNoColumn: only a column of plain digit strings of 1 to 18 digits is read as integers. pandas also reads signed values ("-3", "+5") as int64, turns the column to float64 when a value is a decimal ("1.5", "1e3"), so that `to_csv` writes "21001" back as "21001.0", and reads NA markers ("NA", "null", "None", "nan") as NaN, written back empty. A column with any of these is treated as text, so the model dedups where the code, as written, may not. Values of more than 18 digits are also treated as text.
- The filesystem, `os`, `glob` and `datetime` are not modelled. Files and listings are values; the date and time strings are parameters.
- Flask routing and `render_template` are not modelled, and neither is the commented-out earlier server in app.py:1-106.
- The module-level start-up calls in app.py (model loading, `os.makedirs`) are not modelled. `load_known_faces` after a registration is captured by `Registration.RegisteredStudentReloads` on the new folder alone.
- Recognition.MarkAttendanceApi: the `{"status": "error"}` 400 reply for a missing image and the `{"match": False}` replies are abstracted to `MissingImage` and `NoMatch`. A crash while decoding the image becomes `Crashed(reason)`, where Flask would answer 500.
- Recognition.LoadKnownFaces: reading `info.txt` is assumed to succeed. In app.py:216-223 the embedding and the RegNo are appended before the file is opened; if the open or read raises (permission, decoding, `info.txt` being a directory), the two lists end one longer than `known_names` and the exception escapes. The model proves the three lists parallel, which holds only without such a failure.
- Registration.RegisterApi: a failure of the reload at app.py:313 after the files are written (the read failure above) would answer 500 with the student's files already saved; the model reports success there. The dataset is a map from folder name to folder contents. A RegNo containing path separators is treated as a plain key.
- Chunking.SplitFile: the unused `file_size` variable and the printed messages are not modelled.
- Recognition.RepeatedMatchesMarkOnce: promised only while some RegNo on the sheet is not all digits; with an all-digit RegNo column the code as written marks the student again (`Recognition.NumericRosterMarkedTwice`, see Findings).
- Controller.OnAttendanceReply: the `console.log` of the body and the `reg_no` field of the reply are ignored, as the page ignores them.

## Findings

| source | as written | input that shows it | evidently intended | confidence | as-written member | corrected member |
|---|---|---|---|---|---|---|
| static/js/script.js:110 | `startAttendance` overwrites `attendanceInterval` without clearing the interval it held, so `stopAttendance` clears only the newest one | click Start Attendance twice, then Stop Attendance: the first interval keeps running and posts frames as soon as a stream is attached again | clear any running attendance interval before starting another, so at most one loop exists and stop ends it | high; not executed | ControllerProperties.RestartLeaksLoop | ControllerProperties.FixedRestartThenStop |
| app.py:135 | `sorted(glob(...))` orders part names as strings, so `.part10` sorts before `.part2` | a file split into ten one-byte parts [0..9]: the stitched file starts 0, 9, 1, … | concatenate parts in part-number order | high; not executed | Stitching.TenPartsMisordered | Stitching.SplitThenStitchInOrder |
| app.py:241-258 | `pd.read_csv` infers an integer dtype for a RegNo column whose values are all digits; the int column never equals the string `reg_no`, and `to_csv` writes the numbers back without leading zeros | student "Asha", RegNo "21001", recognised twice on 2025-01-06: two rows are appended; RegNo "0123" becomes "123" once another student is marked | compare and keep RegNo as text (for example `dtype=str`), so a student is marked once per day | medium (depends on pandas dtype inference); not executed | AttendanceLog.NumericRegNoMarkedTwice, AttendanceLog.LeadingZerosDropped, Recognition.NumericRosterMarkedTwice | AttendanceLog.MarkTwiceSameDay |
| static/js/script.js:34-44 | `captureFaces` starts a new interval without clearing one still running; both closures push into the one `capturedImages` | click Capture twice, let the first interval take its 50 frames, then let the second tick once: 51 frames are buffered | clear the running capture interval (or ignore the click) so a run buffers at most 50 frames | medium; not executed | ControllerProperties.DoubleCaptureOverfills | ControllerProperties.FixedCaptureNeverOverfills |

=== FILE: attendance_log.dfy ===
/** `mark_attendance_csv` (app.py): the attendance sheet is a sequence of
    rows `Date, Time, Name, RegNo, Status`; a student is marked at most
    once per date. Dates and times are the `strftime` strings, taken as
    inputs because the clock is not modelled. */
module AttendanceLog {
  import opened Base

  datatype Row = Row(date: string, time: string, name: string, regNo: string, status: string)

  const PresentStatus := "Present"

  /** Some row already records `regNo` on `date`. */
  predicate MarkedOn(rows: seq<Row>, regNo: string, date: string) {
    exists i :: 0 <= i < |rows| && rows[i].regNo == regNo && rows[i].date == date
  }

  /** No student appears twice on the same date. */
  predicate OncePerDay(rows: seq<Row>) {
    forall i, j :: 0 <= i < j < |rows| ==> !(rows[i].regNo == rows[j].regNo && rows[i].date == rows[j].date)
  }

  /** The rows of the sheet; a missing file is first created with the header only. */
  function Existing(file: Option<seq<Row>>): seq<Row> {
    match file
    case None => []
    case Some(rows) => rows
  }

  /** The duplicate filter `df[(df['RegNo'] == reg_no) & (df['Date'] == date_str)]`
      over text cells, the intended reading (pandas' own reading is
      `MarkedOnAsRead`), scanning the rows one by one. */
  function AlreadyPresent(rows: seq<Row>, regNo: string, date: string): (b: bool)
    ensures b <==> MarkedOn(rows, regNo, date)
  {
    if |rows| == 0 then false
    else if rows[0].regNo == regNo && rows[0].date == date then true
    else
      var rest := AlreadyPresent(rows[1..], regNo, date);
      assert MarkedOn(rows[1..], regNo, date) ==> MarkedOn(rows, regNo, date) by {
        if MarkedOn(rows[1..], regNo, date) {
          var i :| 0 <= i < |rows| - 1 && rows[1..][i].regNo == regNo && rows[1..][i].date == date;
          assert rows[i + 1] == rows[1..][i];
        }
      }
      assert MarkedOn(rows, regNo, date) ==> MarkedOn(rows[1..], regNo, date) by {
        if MarkedOn(rows, regNo, date) {
          var i :| 0 <= i < |rows| && rows[i].regNo == regNo && rows[i].date == date;
          assert i != 0;
          assert rows[1..][i - 1] == rows[i];
        }
      }
      rest
  }

  /** What the call leaves in the file, and whether it returned True. */
  datatype MarkResult = MarkResult(rows: seq<Row>, appended: bool)

  /** `mark_attendance_csv(name, reg_no)` at `date`/`time`, with the RegNo
      column compared as text. */
  function MarkAttendanceCsv(file: Option<seq<Row>>, name: string, regNo: string, date: string, time: string): (r: MarkResult)
    ensures r.appended <==> !MarkedOn(Existing(file), regNo, date)
    ensures r.appended ==> r.rows == Existing(file) + [Row(date, time, name, regNo, PresentStatus)]
    ensures !r.appended ==> r.rows == Existing(file)
  {
    var rows := Existing(file);
    if AlreadyPresent(rows, regNo, date) then MarkResult(rows, false)
    else MarkResult(rows + [Row(date, time, name, regNo, PresentStatus)], true)
  }

  /** Marking keeps the sheet free of same-day duplicates and never alters
      an earlier row. */
  lemma MarkPreservesOncePerDay(rows: seq<Row>, name: string, regNo: string, date: string, time: string)
    requires OncePerDay(rows)
    ensures var r := MarkAttendanceCsv(Some(rows), name, regNo, date, time);
      && OncePerDay(r.rows)
      && |rows| <= |r.rows| <= |rows| + 1
      && r.rows[..|rows|] == rows
  {
    var r := MarkAttendanceCsv(Some(rows), name, regNo, date, time);
    if r.appended {
      forall i, j | 0 <= i < j < |r.rows|
        ensures !(r.rows[i].regNo == r.rows[j].regNo && r.rows[i].date == r.rows[j].date)
      {
        if j == |rows| {
          assert r.rows[i] == rows[i];
        }
      }
    }
  }

  /** A second call for the same student on the same date appends nothing
      and returns False, whatever the time. */
  lemma MarkTwiceSameDay(file: Option<seq<Row>>, name: string, regNo: string, date: string, t1: string, t2: string)
    ensures var r1 := MarkAttendanceCsv(file, name, regNo, date, t1);
      var r2 := MarkAttendanceCsv(Some(r1.rows), name, regNo, date, t2);
      && !r2.appended
      && r2.rows == r1.rows
      && |r2.rows| <= |Existing(file)| + 1
  {
    var r1 := MarkAttendanceCsv(file, name, regNo, date, t1);
    if r1.appended {
      var n := |Existing(file)|;
      assert r1.rows[n].regNo == regNo && r1.rows[n].date == date;
    }
  }

  // ---------------------------------------------------------------------
  // The comparison as `pd.read_csv` makes it.
  //
  // `pd.read_csv` infers a column's type from its text: when every RegNo
  // in the file is a run of decimal digits the column is read as int64,
  // and `df['RegNo'] == reg_no` compares those integers with the string
  // `reg_no`, which pandas answers with False for every row.
  // ---------------------------------------------------------------------

  /** A RegNo cell after `pd.read_csv`. */
  datatype Cell = IntCell(value: nat) | TextCell(text: string)

  /** A value pandas reads as a 64-bit integer (the digit-only case). */
  predicate Numeric(s: string) {
    1 <= |s| <= 18 && AllDigits(s)
  }

  /** The RegNo column as read back: integers when every value is numeric. */
  function RegNoColumn(rows: seq<Row>): (col: seq<Cell>)
    ensures |col| == |rows|
    ensures forall i :: 0 <= i < |rows| ==> (col[i].TextCell? <==> !(forall k :: 0 <= k < |rows| ==> Numeric(rows[k].regNo)))
    ensures forall i :: 0 <= i < |rows| && col[i].TextCell? ==> col[i].text == rows[i].regNo
    ensures forall i :: 0 <= i < |rows| && col[i].IntCell? ==> Numeric(rows[i].regNo) && col[i].value == ParseDigits(rows[i].regNo)
  {
    if forall k :: 0 <= k < |rows| ==> Numeric(rows[k].regNo)
    then seq(|rows|, i requires 0 <= i < |rows| => IntCell(ParseDigits(rows[i].regNo)))
    else seq(|rows|, i requires 0 <= i < |rows| => TextCell(rows[i].regNo))
  }

  /** `cell == reg_no` with a string on the right: an integer cell never equals it. */
  predicate CellEquals(c: Cell, s: string) {
    c.TextCell? && c.text == s
  }

  /** The duplicate test as the inferred column answers it. */
  predicate MarkedOnAsRead(rows: seq<Row>, regNo: string, date: string) {
    var col := RegNoColumn(rows);
    exists i :: 0 <= i < |rows| && CellEquals(col[i], regNo) && rows[i].date == date
  }

  /** How `to_csv` writes a RegNo cell back: an integer in decimal, a text cell as it was. */
  function CellText(c: Cell): string {
    match c
    case IntCell(v) => NatToString(v)
    case TextCell(t) => t
  }

  /** The earlier rows as `df.to_csv` writes them back after `pd.read_csv`:
      only the RegNo column can change, and only when it was read as
      integers, which are written without the leading zeros they had. */
  function WrittenBack(rows: seq<Row>): (w: seq<Row>)
    ensures |w| == |rows|
    ensures forall i :: 0 <= i < |rows| ==> w[i] == rows[i].(regNo := w[i].regNo)
    ensures (exists k :: 0 <= k < |rows| && !Numeric(rows[k].regNo)) ==> w == rows
    ensures (forall k :: 0 <= k < |rows| ==> Numeric(rows[k].regNo)) ==>
      forall i :: 0 <= i < |rows| ==> w[i].regNo == NatToString(ParseDigits(rows[i].regNo))
  {
    var col := RegNoColumn(rows);
    seq(|rows|, i requires 0 <= i < |rows| => rows[i].(regNo := CellText(col[i])))
  }

  /** A rewritten RegNo still denotes the number it was read as. */
  lemma WrittenBackSameNumber(rows: seq<Row>, i: nat)
    requires i < |rows|
    requires forall k :: 0 <= k < |rows| ==> Numeric(rows[k].regNo)
    ensures AllDigits(WrittenBack(rows)[i].regNo)
    ensures ParseDigits(WrittenBack(rows)[i].regNo) == ParseDigits(rows[i].regNo)
  {
    assert Numeric(rows[i].regNo);
    ParseRendered(ParseDigits(rows[i].regNo));
  }

  /** `mark_attendance_csv` as written, with the RegNo column inferred by
      `pd.read_csv` and written back by `to_csv` when a row is appended. */
  function MarkAttendanceAsRead(file: Option<seq<Row>>, name: string, regNo: string, date: string, time: string): (r: MarkResult)
    ensures r.appended <==> !MarkedOnAsRead(Existing(file), regNo, date)
    ensures r.appended ==> r.rows == WrittenBack(Existing(file)) + [Row(date, time, name, regNo, PresentStatus)]
    ensures !r.appended ==> r.rows == Existing(file)
  {
    var rows := Existing(file);
    if MarkedOnAsRead(rows, regNo, date) then MarkResult(rows, false)
    else MarkResult(WrittenBack(rows) + [Row(date, time, name, regNo, PresentStatus)], true)
  }

  /** While some RegNo on the sheet is not a plain number, the column stays
      text and the as-read comparison agrees with the text one. */
  lemma AsReadAgreesOnTextColumn(rows: seq<Row>, name: string, regNo: string, date: string, time: string)
    requires exists k :: 0 <= k < |rows| && !Numeric(rows[k].regNo)
    ensures MarkAttendanceAsRead(Some(rows), name, regNo, date, time) == MarkAttendanceCsv(Some(rows), name, regNo, date, time)
  {
    var col := RegNoColumn(rows);
    if MarkedOn(rows, regNo, date) {
      var i :| 0 <= i < |rows| && rows[i].regNo == regNo && rows[i].date == date;
      assert CellEquals(col[i], regNo);
    }
  }

  /** On a sheet of one row with an all-digit RegNo, every mark appends, and
      the earlier row's RegNo is written back as the decimal text of its number. */
  lemma MarkAfterNumericRow(row: Row, name: string, regNo: string, date: string, time: string)
    requires Numeric(row.regNo)
    ensures var r := MarkAttendanceAsRead(Some([row]), name, regNo, date, time);
      && r.appended
      && r.rows == [row.(regNo := NatToString(ParseDigits(row.regNo))), Row(date, time, name, regNo, PresentStatus)]
  {
    var rows := [row];
    assert forall k :: 0 <= k < |rows| ==> Numeric(rows[k].regNo);
    assert !MarkedOnAsRead(rows, regNo, date);
  }

  /** A student with an all-digit registration number is marked twice on
      the same day: the second call appends a duplicate row. */
  lemma NumericRegNoMarkedTwice()
    ensures var r1 := MarkAttendanceAsRead(None, "Asha", "21001", "2025-01-06", "09:00:00");
      var r2 := MarkAttendanceAsRead(Some(r1.rows), "Asha", "21001", "2025-01-06", "09:00:03");
      && r1.appended && r2.appended
      && |r2.rows| == 2
      && !OncePerDay(r2.rows)
  {
    var row := Row("2025-01-06", "09:00:00", "Asha", "21001", PresentStatus);
    assert MarkAttendanceAsRead(None, "Asha", "21001", "2025-01-06", "09:00:00") == MarkResult([row], true);
    assert Numeric(row.regNo) by { assert AllDigits("21001"); }
    MarkAfterNumericRow(row, "Asha", "21001", "2025-01-06", "09:00:03");
    RenderedNumbers();
    var r2 := MarkAttendanceAsRead(Some([row]), "Asha", "21001", "2025-01-06", "09:00:03");
    assert r2.rows[0].regNo == r2.rows[1].regNo && r2.rows[0].date == r2.rows[1].date;
  }

  /** The readings and renderings the two traces below go through. */
  lemma RenderedNumbers()
    ensures ParseDigits("21001") == 21001 && NatToString(21001) == "21001"
    ensures ParseDigits("0123") == 123 && NatToString(123) == "123"
  {
    assert "21001"[..4] == "2100" && "2100"[..3] == "210" && "210"[..2] == "21" && "21"[..1] == "2" && "2"[..0] == "";
    assert "0123"[..3] == "012" && "012"[..2] == "01" && "01"[..1] == "0" && "0"[..0] == "";
    assert NatToString(2) == "2" && NatToString(1) == "1";
    assert NatToString(21) == "21";
    assert NatToString(210) == "210";
    assert NatToString(2100) == "2100";
    assert NatToString(12) == "12";
  }

  /** Two students with zero-padded numbers marked on one day: the second
      write turns the first student's "0123" into "123". */
  lemma LeadingZerosDropped()
    ensures var r1 := MarkAttendanceAsRead(None, "Ravi", "0123", "2025-01-06", "09:00:00");
      var r2 := MarkAttendanceAsRead(Some(r1.rows), "Asha", "0456", "2025-01-06", "09:00:03");
      && r1.rows[0].regNo == "0123"
      && r2.appended && |r2.rows| == 2
      && r2.rows[0].regNo == "123" && r2.rows[1].regNo == "0456"
  {
    var row := Row("2025-01-06", "09:00:00", "Ravi", "0123", PresentStatus);
    assert MarkAttendanceAsRead(None, "Ravi", "0123", "2025-01-06", "09:00:00") == MarkResult([row], true);
    assert Numeric(row.regNo) by { assert AllDigits("0123"); }
    MarkAfterNumericRow(row, "Asha", "0456", "2025-01-06", "09:00:03");
    RenderedNumbers();
  }
}

=== FILE: base.dfy ===
/** Vocabulary shared by the browser controller, the Flask server kernels
    and the model-file chunker: optional values, bytes, and the decimal
    rendering of naturals that both `Photos Taken: <n>` and `.part<n>` use. */
module Base {

  /** A value that may be absent: `null`/`undefined` in JavaScript, `None` in Python. */
  datatype Option<+T> = None | Some(value: T)

  /** One byte of a file, as Python's `bytes` holds it. */
  type byte = b: int | 0 <= b < 256

  predicate IsDigit(c: char) {
    '0' <= c <= '9'
  }

  predicate AllDigits(s: string) {
    forall i :: 0 <= i < |s| ==> IsDigit(s[i])
  }

  /** The character of a decimal digit. */
  function DigitChar(d: nat): (c: char)
    requires d < 10
    ensures IsDigit(c)
    ensures c as int - '0' as int == d
  {
    (48 + d) as char
  }

  /** Decimal rendering of a natural number, as `str(n)` in Python and
      `${n}` in a JavaScript template literal produce it. */
  function NatToString(n: nat): (s: string)
    ensures 1 <= |s|
    ensures AllDigits(s)
    ensures n < 10 <==> |s| == 1
  {
    if n < 10 then [DigitChar(n)] else NatToString(n / 10) + [DigitChar(n % 10)]
  }

  /** The value of a string of decimal digits (the empty string reads as 0). */
  function ParseDigits(s: string): nat
    requires AllDigits(s)
  {
    if |s| == 0 then 0
    else ParseDigits(s[..|s| - 1]) * 10 + (s[|s| - 1] as int - '0' as int)
  }

  /** Reading back a rendered number gives the number. */
  lemma {:induction false} ParseRendered(n: nat)
    ensures ParseDigits(NatToString(n)) == n
  {
    var s := NatToString(n);
    if n >= 10 {
      assert s[..|s| - 1] == NatToString(n / 10);
      ParseRendered(n / 10);
    }
  }

  /** Distinct numbers render to distinct strings. */
  lemma NatToStringInjective(a: nat, b: nat)
    requires NatToString(a) == NatToString(b)
    ensures a == b
  {
    ParseRendered(a);
    ParseRendered(b);
  }
}

=== FILE: chunking.dfy ===
/** `split_file(file_path, chunk_size)` (split.py): read the file
    `chunk_size` bytes at a time and write each non-empty read to
    `<file_path>.part<k>`, numbering from 1. Python's `f.read(n)` returns
    nothing for n = 0 and the whole rest of the file for n < 0; both are
    kept. */
module Chunking {
  import opened Base

  /** A file written next to the original: its path and its bytes. */
  datatype Part = Part(name: string, data: seq<byte>)

  /** The successive results of `f.read(chunk_size)` up to the first empty one. */
  function Chunks(data: seq<byte>, chunkSize: int): seq<seq<byte>>
    decreases |data|
  {
    if |data| == 0 || chunkSize == 0 then []
    else if chunkSize < 0 || |data| <= chunkSize then [data]
    else [data[..chunkSize]] + Chunks(data[chunkSize..], chunkSize)
  }

  /** Byte strings written one after another. */
  function Flatten(chunks: seq<seq<byte>>): seq<byte> {
    if |chunks| == 0 then [] else chunks[0] + Flatten(chunks[1..])
  }

  /** The contents of parts written one after another to one output file. */
  function Join(parts: seq<Part>): seq<byte> {
    if |parts| == 0 then [] else parts[0].data + Join(parts[1..])
  }

  /** `f"{file_path}.part{part_num}"`. */
  function PartName(path: string, k: nat): string {
    path + ".part" + NatToString(k)
  }

  /** The parts `split_file` writes; nothing when the input does not exist. */
  function SplitFile(path: string, file: Option<seq<byte>>, chunkSize: int): (parts: seq<Part>)
    ensures file.None? ==> parts == []
    ensures file.Some? ==> |parts| == |Chunks(file.value, chunkSize)|
    ensures forall i :: 0 <= i < |parts| ==> parts[i].name == PartName(path, i + 1)
    ensures file.Some? ==> forall i :: 0 <= i < |parts| ==> parts[i].data == Chunks(file.value, chunkSize)[i]
  {
    match file
    case None => []
    case Some(data) =>
      var cs := Chunks(data, chunkSize);
      seq(|cs|, i requires 0 <= i < |cs| => Part(PartName(path, i + 1), cs[i]))
  }

  /** Reading with a zero size stops at once; a negative size reads the whole file. */
  lemma DegenerateChunkSizes(data: seq<byte>, chunkSize: int)
    requires chunkSize <= 0
    ensures chunkSize == 0 ==> Chunks(data, chunkSize) == []
    ensures chunkSize < 0 && |data| > 0 ==> Chunks(data, chunkSize) == [data]
  {
  }

  /** The chunks, written back to back, are the file. */
  lemma {:induction false} ChunksConcatenate(data: seq<byte>, chunkSize: int)
    requires chunkSize != 0
    ensures Flatten(Chunks(data, chunkSize)) == data
    decreases |data|
  {
    if |data| > 0 && chunkSize > 0 && |data| > chunkSize {
      ChunksConcatenate(data[chunkSize..], chunkSize);
      assert data == data[..chunkSize] + data[chunkSize..];
    } else if |data| > 0 {
      assert Flatten([data]) == data + Flatten([]);
    }
  }

  /** Every chunk but the last is full; the last is non-empty and at most full. */
  lemma {:induction false} ChunkSizes(data: seq<byte>, chunkSize: int)
    requires chunkSize > 0
    ensures var cs := Chunks(data, chunkSize);
      && (forall i :: 0 <= i < |cs| - 1 ==> |cs[i]| == chunkSize)
      && (|cs| > 0 ==> 0 < |cs[|cs| - 1]| <= chunkSize)
    decreases |data|
  {
    if |data| > chunkSize {
      ChunkSizes(data[chunkSize..], chunkSize);
      var cs := Chunks(data, chunkSize);
      assert forall i :: 1 <= i < |cs| ==> cs[i] == Chunks(data[chunkSize..], chunkSize)[i - 1];
    }
  }

  /** There are ceil(size / chunk_size) chunks, i.e. the least k with
      size <= k * chunk_size; an empty file has none. */
  lemma {:induction false} ChunkCount(data: seq<byte>, chunkSize: int)
    requires chunkSize > 0
    ensures var k := |Chunks(data, chunkSize)|;
      && |data| <= k * chunkSize
      && (k > 0 ==> (k - 1) * chunkSize < |data|)
    decreases |data|
  {
    if |data| > chunkSize {
      ChunkCount(data[chunkSize..], chunkSize);
      var k' := |Chunks(data[chunkSize..], chunkSize)|;
      assert (k' + 1) * chunkSize == k' * chunkSize + chunkSize;
      assert k' * chunkSize == (k' - 1) * chunkSize + chunkSize;
    }
  }

  /** Chunk i holds the bytes from offset i*chunk_size up to the next multiple or the end. */
  lemma {:induction false} ChunkContents(data: seq<byte>, chunkSize: int, i: nat)
    requires chunkSize > 0
    requires i < |Chunks(data, chunkSize)|
    ensures i * chunkSize < |data|
    ensures var lo := i * chunkSize;
      Chunks(data, chunkSize)[i] == data[lo .. if lo + chunkSize < |data| then lo + chunkSize else |data|]
    decreases |data|
  {
    if i > 0 {
      var rest := data[chunkSize..];
      assert Chunks(data, chunkSize) == [data[..chunkSize]] + Chunks(rest, chunkSize);
      ChunkContents(rest, chunkSize, i - 1);
      var lo := (i - 1) * chunkSize;
      assert lo + chunkSize == i * chunkSize;
      ShiftedSlice(data, chunkSize, lo, if lo + chunkSize < |rest| then lo + chunkSize else |rest|);
    }
  }

  /** A slice of the bytes after the first chunk is a slice of the file, shifted by one chunk. */
  lemma ShiftedSlice(data: seq<byte>, chunkSize: nat, lo: nat, hi: nat)
    requires chunkSize <= |data| && lo <= hi <= |data| - chunkSize
    ensures data[chunkSize..][lo..hi] == data[lo + chunkSize..hi + chunkSize]
  {
  }

  /** Joining the parts in part-number order restores the file, for any
      non-zero chunk size. */
  lemma SplitThenJoin(path: string, data: seq<byte>, chunkSize: int)
    requires chunkSize != 0
    ensures Join(SplitFile(path, Some(data), chunkSize)) == data
  {
    var parts := SplitFile(path, Some(data), chunkSize);
    JoinIsFlatten(parts, Chunks(data, chunkSize));
    ChunksConcatenate(data, chunkSize);
  }

  /** Joining parts is flattening their contents. */
  lemma {:induction false} JoinIsFlatten(parts: seq<Part>, chunks: seq<seq<byte>>)
    requires |parts| == |chunks|
    requires forall i :: 0 <= i < |parts| ==> parts[i].data == chunks[i]
    ensures Join(parts) == Flatten(chunks)
    decreases |parts|
  {
    if |parts| > 0 {
      JoinIsFlatten(parts[1..], chunks[1..]);
    }
  }
}

=== FILE: controller.dfy ===
/** The browser controller of static/js/script.js as a state machine.
    Timer ticks, button presses, camera permission results and network
    completions are events; `Step` gives the next controller state and the
    effects the page performs (requests, alerts, navigation, stopping
    camera tracks). Frames are the data-URL strings `canvas.toDataURL`
    returns, supplied by the tick that samples them. */
module Controller {
  import opened Base

  /** `totalNeeded`: frames one enrollment run captures. */
  const TotalNeeded: nat := 50
  /** Period of the capture interval, in milliseconds. */
  const CapturePeriodMs: nat := 100
  /** Period of the attendance interval, in milliseconds. */
  const AttendancePeriodMs: nat := 3000
  /** Delay before a "Marked Present" status reverts, in milliseconds. */
  const ResetDelayMs: nat := 2000

  const CameraStartedText := "Camera started."
  const CameraErrorPrefix := "Error accessing camera: "
  const CapturingText := "Capturing... Please move your head slightly."
  const CaptureCompleteText := "Capture Complete! Click 'Save Student' to finish."
  const MissingFieldsText := "Please fill all fields and capture photos first."
  const UploadingText := "Uploading data... This may take a moment."
  const RegisteredText := "Registration Successful!"
  const UploadFailedText := "Upload Failed."
  const ScanningStartedText := "System Active. Scanning for faces..."
  const MarkedPresentPrefix := "\U{2705} Marked Present: "
  const ScanningText := "Scanning..."
  const StoppedText := "System Stopped."

  type DataUrl = string
  type TrackId = nat

  /** A camera stream (`video.srcObject`) and its tracks. */
  datatype Stream = Stream(tracks: seq<TrackId>)

  /** `statusDiv.style.color`; Unstyled is whatever the page markup sets. */
  datatype Color = Unstyled | Green | Black

  /** The callback a timer runs. A capture interval's closure owns its own `count`. */
  datatype Job = CaptureJob(count: nat) | AttendanceJob | ResetStatusJob

  /** A live `setInterval` (repeating) or `setTimeout` (one-shot). */
  datatype Timer = Timer(periodMs: nat, repeating: bool, job: Job)

  datatype Controller = Controller(
    stream: Option<Stream>,           // video.srcObject
    captured: seq<DataUrl>,           // capturedImages
    attendanceInterval: Option<nat>,  // attendanceInterval
    timers: map<nat, Timer>,          // live timer handles
    nextHandle: nat,                  // the next handle the browser hands out
    status: string,                   // statusDiv.innerText
    statusColor: Color,
    progress: string,                 // progressDiv.innerText
    submitEnabled: bool,              // !submitBtn.disabled
    registerInFlight: nat,            // /api/register requests awaiting a reply
    attendanceInFlight: nat)          // /api/mark_attendance requests awaiting a reply

  /** The body of `POST /api/register`. */
  datatype RegisterPayload = RegisterPayload(name: string, regNo: string, department: string, images: seq<DataUrl>)

  /** How a `/api/register` fetch ends: a parsed JSON body (whatever the
      HTTP status) or an exception from `fetch` or `response.json()`. */
  datatype RegisterReply =
    | RegisterJson(httpStatus: nat, status: Option<string>, message: Option<string>)
    | RegisterThrew(error: string)

  /** How a `/api/mark_attendance` fetch ends; `matched` is the truthiness of `result.match`. */
  datatype AttendanceReply =
    | AttendanceJson(matched: bool, student: Option<string>)
    | AttendanceThrew(error: string)

  datatype Event =
    | CameraGranted(granted: Stream)         // getUserMedia resolved
    | CameraDenied(error: string)            // getUserMedia rejected
    | StopCameraCalled
    | CaptureClicked                         // captureFaces()
    | TimerFired(handle: nat, frame: DataUrl)
    | SubmitClicked(name: string, regNo: string, department: string)
    | RegisterReplied(reply: RegisterReply)
    | StartAttendanceClicked
    | StopAttendanceClicked
    | AttendanceReplied(answer: AttendanceReply)

  datatype Effect =
    | RequestCamera                          // navigator.mediaDevices.getUserMedia
    | StopTrack(track: TrackId)
    | Alert(text: string)
    | Navigate(url: string)
    | PostRegister(payload: RegisterPayload)
    | PostAttendance(image: DataUrl)

  datatype Transition = Transition(next: Controller, effects: seq<Effect>)

  /** A fresh page: no stream, nothing captured, no timers, no requests. */
  function Initial(status: string, submitEnabled: bool): Controller {
    Controller(None, [], None, map[], 0, status, Unstyled, "", submitEnabled, 0, 0)
  }

  /** JavaScript's string conversion of a possibly missing JSON field. */
  function JsText(v: Option<string>): string {
    match v
    case None => "undefined"
    case Some(t) => t
  }

  /** `Photos Taken: <count> / <totalNeeded>`. */
  function ProgressText(count: nat): string {
    "Photos Taken: " + NatToString(count) + " / " + NatToString(TotalNeeded)
  }

  // --- camera -----------------------------------------------------------------

  /** `stopCamera()`: with a stream, stop each of its tracks and clear
      `srcObject`; without one, do nothing. */
  function StopCamera(s: Controller): (t: Transition)
    ensures t.next.stream == None
    ensures t.next == s.(stream := None)
    ensures s.stream.None? ==> t.effects == []
    ensures s.stream.Some? ==> |t.effects| == |s.stream.value.tracks|
    ensures s.stream.Some? ==> forall i :: 0 <= i < |t.effects| ==> t.effects[i] == StopTrack(s.stream.value.tracks[i])
  {
    match s.stream
    case None => Transition(s, [])
    case Some(st) =>
      Transition(s.(stream := None), seq(|st.tracks|, i requires 0 <= i < |st.tracks| => StopTrack(st.tracks[i])))
  }

  /** A second `stopCamera()` is a no-op, and the first stops exactly the stream's tracks. */
  lemma StopCameraIdempotent(s: Controller)
    ensures StopCamera(StopCamera(s).next) == Transition(StopCamera(s).next, [])
    ensures s.stream.Some? ==> forall k :: StopTrack(k) in StopCamera(s).effects <==> k in s.stream.value.tracks
  {
    if s.stream.Some? {
      var es := StopCamera(s).effects;
      forall k | k in s.stream.value.tracks
        ensures StopTrack(k) in es
      {
        var i :| 0 <= i < |s.stream.value.tracks| && s.stream.value.tracks[i] == k;
        assert es[i] == StopTrack(k);
      }
    }
  }

  /** `startCamera()` once `getUserMedia` resolves: the new stream replaces
      `srcObject` without the tracks of a stream already there being stopped. */
  function OnCameraGranted(s: Controller, st: Stream): (t: Transition)
    ensures t.next.stream == Some(st) && t.next.status == CameraStartedText
    ensures t.effects == []
    ensures t.next == s.(stream := t.next.stream, status := t.next.status)
  {
    Transition(s.(stream := Some(st), status := CameraStartedText), [])
  }

  /** `startCamera()` once `getUserMedia` rejects: show the error; the stream stays as it was. */
  function OnCameraDenied(s: Controller, err: string): (t: Transition)
    ensures t.next.status == CameraErrorPrefix + err
    ensures t.effects == []
    ensures t.next == s.(status := t.next.status)
  {
    Transition(s.(status := CameraErrorPrefix + err), [])
  }

  // --- registration -------------------------------------------------------------

  /** `captureFaces()`: empty the buffer and start a 100 ms interval whose
      closure counts from 0. */
  function CaptureFaces(s: Controller): (t: Transition)
    ensures t.next.captured == []
    ensures s.nextHandle in t.next.timers
    ensures t.next.timers[s.nextHandle] == Timer(CapturePeriodMs, true, CaptureJob(0))
    ensures t.next.timers == s.timers[s.nextHandle := Timer(CapturePeriodMs, true, CaptureJob(0))]
    ensures forall h :: h in s.timers && h != s.nextHandle ==> h in t.next.timers && t.next.timers[h] == s.timers[h]
    ensures t.next.status == CapturingText && t.effects == []
    ensures t.next == s.(captured := [], timers := t.next.timers, nextHandle := s.nextHandle + 1, status := CapturingText)
  {
    var h := s.nextHandle;
    Transition(s.(captured := [], timers := s.timers[h := Timer(CapturePeriodMs, true, CaptureJob(0))],
                  nextHandle := h + 1, status := CapturingText), [])
  }

  /** One run of the capture interval body for the closure at handle h. */
  function CaptureTick(s: Controller, h: nat, count: nat, frame: DataUrl): (t: Transition)
    ensures count >= TotalNeeded ==>
      && t.next.captured == s.captured
      && h !in t.next.timers
      && t.next.submitEnabled
      && t.next.status == CaptureCompleteText
    ensures count < TotalNeeded ==>
      && t.next.captured == s.captured + [frame]
      && h in t.next.timers && t.next.timers[h] == Timer(CapturePeriodMs, true, CaptureJob(count + 1))
      && t.next.progress == ProgressText(count + 1)
      && t.next.submitEnabled == s.submitEnabled
    ensures forall g :: g != h ==> (g in t.next.timers <==> g in s.timers)
    ensures forall g :: g != h && g in s.timers ==> t.next.timers[g] == s.timers[g]
    ensures count >= TotalNeeded ==>
      t.next == s.(timers := t.next.timers, status := CaptureCompleteText, submitEnabled := true)
    ensures count < TotalNeeded ==>
      t.next == s.(captured := t.next.captured, timers := t.next.timers, progress := t.next.progress)
    ensures t.effects == []
  {
    if count >= TotalNeeded then
      Transition(s.(timers := s.timers - {h}, status := CaptureCompleteText, submitEnabled := true), [])
    else
      Transition(s.(captured := s.captured + [frame],
                    timers := s.timers[h := Timer(CapturePeriodMs, true, CaptureJob(count + 1))],
                    progress := ProgressText(count + 1)), [])
  }

  /** The guard of `submitRegistration`: name, registration number and at least one frame. */
  predicate CanSubmit(name: string, regNo: string, captured: seq<DataUrl>) {
    name != "" && regNo != "" && |captured| > 0
  }

  /** `submitRegistration()` up to the request: either alert and stop, or
      post the form fields with the whole buffer. */
  function SubmitRegistration(s: Controller, name: string, regNo: string, department: string): (t: Transition)
    ensures !CanSubmit(name, regNo, s.captured) ==> t == Transition(s, [Alert(MissingFieldsText)])
    ensures CanSubmit(name, regNo, s.captured) ==>
      && t.effects == [PostRegister(RegisterPayload(name, regNo, department, s.captured))]
      && t.next == s.(status := UploadingText, registerInFlight := s.registerInFlight + 1)
  {
    if !CanSubmit(name, regNo, s.captured) then Transition(s, [Alert(MissingFieldsText)])
    else
      Transition(s.(status := UploadingText, registerInFlight := s.registerInFlight + 1),
                 [PostRegister(RegisterPayload(name, regNo, department, s.captured))])
  }

  /** The rest of `submitRegistration()` once the fetch settles. */
  function OnRegisterReply(s: Controller, reply: RegisterReply): (t: Transition)
    requires s.registerInFlight > 0
    ensures t.next.registerInFlight == s.registerInFlight - 1
    ensures Navigate("/") in t.effects <==> reply.RegisterJson? && reply.status == Some("success")
    ensures reply.RegisterJson? && reply.status != Some("success") ==> t.effects == [Alert("Error: " + JsText(reply.message))]
    ensures reply.RegisterThrew? ==> t.next.status == UploadFailedText && t.effects == []
    ensures reply.RegisterJson? ==> t.next.status == s.status
    ensures t.next.submitEnabled == s.submitEnabled && t.next.captured == s.captured
    ensures reply.RegisterJson? && reply.status == Some("success") ==> t.effects == [Alert(RegisteredText), Navigate("/")]
    ensures reply.RegisterJson? ==> t.next == s.(registerInFlight := s.registerInFlight - 1)
    ensures reply.RegisterThrew? ==> t.next == s.(registerInFlight := s.registerInFlight - 1, status := UploadFailedText)
  {
    var s1 := s.(registerInFlight := s.registerInFlight - 1);
    match reply
    case RegisterJson(_, status, message) =>
      if status == Some("success") then Transition(s1, [Alert(RegisteredText), Navigate("/")])
      else Transition(s1, [Alert("Error: " + JsText(message))])
    case RegisterThrew(_) => Transition(s1.(status := UploadFailedText), [])
  }

  // --- attendance -----------------------------------------------------------------

  /** `startAttendance()`: ask for the camera, show the scanning status and
      start a 3000 ms interval, overwriting `attendanceInterval` without
      clearing the interval it held. */
  function StartAttendance(s: Controller): (t: Transition)
    ensures t.effects == [RequestCamera]
    ensures t.next.attendanceInterval == Some(s.nextHandle)
    ensures t.next.timers == s.timers[s.nextHandle := Timer(AttendancePeriodMs, true, AttendanceJob)]
    ensures t.next.status == ScanningStartedText
    ensures t.next.nextHandle == s.nextHandle + 1
    ensures t.next == s.(status := ScanningStartedText, timers := t.next.timers,
                         attendanceInterval := Some(s.nextHandle), nextHandle := s.nextHandle + 1)
  {
    var h := s.nextHandle;
    Transition(s.(status := ScanningStartedText,
                  timers := s.timers[h := Timer(AttendancePeriodMs, true, AttendanceJob)],
                  attendanceInterval := Some(h), nextHandle := h + 1), [RequestCamera])
  }

  /** The attendance interval body up to the request: nothing without a
      stream, otherwise post the sampled frame. */
  function AttendanceTick(s: Controller, frame: DataUrl): (t: Transition)
    ensures s.stream.None? ==> t == Transition(s, [])
    ensures s.stream.Some? ==> t.effects == [PostAttendance(frame)] && t.next == s.(attendanceInFlight := s.attendanceInFlight + 1)
  {
    if s.stream.None? then Transition(s, [])
    else Transition(s.(attendanceInFlight := s.attendanceInFlight + 1), [PostAttendance(frame)])
  }

  /** The rest of the interval body once the fetch settles: a match shows
      the student and schedules the 2000 ms reset; anything else changes nothing visible. */
  function OnAttendanceReply(s: Controller, answer: AttendanceReply): (t: Transition)
    requires s.attendanceInFlight > 0
    ensures t.effects == []
    ensures t.next.attendanceInFlight == s.attendanceInFlight - 1
    ensures t.next.attendanceInterval == s.attendanceInterval && t.next.stream == s.stream
    ensures answer.AttendanceJson? && answer.matched ==>
      && t.next.status == MarkedPresentPrefix + JsText(answer.student)
      && t.next.statusColor == Green
      && t.next.timers == s.timers[s.nextHandle := Timer(ResetDelayMs, false, ResetStatusJob)]
      && t.next == s.(attendanceInFlight := s.attendanceInFlight - 1, status := t.next.status, statusColor := Green,
                      timers := t.next.timers, nextHandle := s.nextHandle + 1)
    ensures !(answer.AttendanceJson? && answer.matched) ==> t.next == s.(attendanceInFlight := s.attendanceInFlight - 1)
  {
    var s1 := s.(attendanceInFlight := s.attendanceInFlight - 1);
    match answer
    case AttendanceJson(matched, student) =>
      if matched then
        var h := s1.nextHandle;
        Transition(s1.(status := MarkedPresentPrefix + JsText(student), statusColor := Green,
                       timers := s1.timers[h := Timer(ResetDelayMs, false, ResetStatusJob)],
                       nextHandle := h + 1), [])
      else Transition(s1, [])
    case AttendanceThrew(_) => Transition(s1, [])
  }

  /** The one-shot reset: back to "Scanning..." in black. */
  function ResetStatus(s: Controller, h: nat): (t: Transition)
    ensures t.next.status == ScanningText && t.next.statusColor == Black
    ensures h !in t.next.timers && t.effects == []
    ensures forall g :: g != h ==> (g in t.next.timers <==> g in s.timers)
    ensures forall g :: g != h && g in s.timers ==> t.next.timers[g] == s.timers[g]
    ensures t.next == s.(status := ScanningText, statusColor := Black, timers := t.next.timers)
  {
    Transition(s.(status := ScanningText, statusColor := Black, timers := s.timers - {h}), [])
  }

  /** `clearInterval(handle)`; clearing null is a no-op. */
  function ClearTimer(timers: map<nat, Timer>, handle: Option<nat>): (r: map<nat, Timer>)
    ensures handle.Some? ==> handle.value !in r
    ensures forall h :: h in timers && handle != Some(h) ==> h in r && r[h] == timers[h]
    ensures forall h :: h in r ==> h in timers
  {
    match handle
    case None => timers
    case Some(h) => timers - {h}
  }

  /** `stopAttendance()`: clear the interval `attendanceInterval` names,
      stop the camera, show "System Stopped.". */
  function StopAttendance(s: Controller): (t: Transition)
    ensures t.next.status == StoppedText && t.next.stream == None
    ensures t.next.timers == ClearTimer(s.timers, s.attendanceInterval)
    ensures t.effects == StopCamera(s).effects
    ensures t.next == s.(stream := None, timers := t.next.timers, status := StoppedText)
  {
    var stopped := StopCamera(s.(timers := ClearTimer(s.timers, s.attendanceInterval)));
    Transition(stopped.next.(status := StoppedText), stopped.effects)
  }

  // --- dispatch -----------------------------------------------------------------

  /** The callback a live timer runs. */
  function FireTimer(s: Controller, h: nat, frame: DataUrl): Transition {
    if h !in s.timers then Transition(s, [])
    else match s.timers[h].job
      case CaptureJob(count) => CaptureTick(s, h, count, frame)
      case AttendanceJob => AttendanceTick(s, frame)
      case ResetStatusJob => ResetStatus(s, h)
  }

  /** One event of the page, as script.js handles it. */
  function Step(s: Controller, e: Event): Transition {
    match e
    case CameraGranted(st) => OnCameraGranted(s, st)
    case CameraDenied(err) => OnCameraDenied(s, err)
    case StopCameraCalled => StopCamera(s)
    case CaptureClicked => CaptureFaces(s)
    case TimerFired(h, frame) => FireTimer(s, h, frame)
    case SubmitClicked(name, regNo, department) => SubmitRegistration(s, name, regNo, department)
    case RegisterReplied(reply) =>
      if s.registerInFlight == 0 then Transition(s, []) else OnRegisterReply(s, reply)
    case StartAttendanceClicked => StartAttendance(s)
    case StopAttendanceClicked => StopAttendance(s)
    case AttendanceReplied(answer) =>
      if s.attendanceInFlight == 0 then Transition(s, []) else OnAttendanceReply(s, answer)
  }

  /** The state after a sequence of events. */
  function Run(s: Controller, es: seq<Event>): Controller
    decreases |es|
  {
    if |es| == 0 then s else Run(Step(s, es[0]).next, es[1..])
  }
}

=== FILE: controller_properties.dfy ===
/** Properties of the browser controller: what a capture run collects, what
    a submission sends, how replies and stops behave, and the attendance
    interval that a second `startAttendance()` leaves running. */
module ControllerProperties {
  import opened Base
  import opened Controller

  predicate IsCapture(s: Controller, h: nat) {
    h in s.timers && s.timers[h].job.CaptureJob?
  }

  predicate IsAttendanceLoop(s: Controller, h: nat) {
    h in s.timers && s.timers[h].job.AttendanceJob?
  }

  ghost predicate CaptureActive(s: Controller) {
    exists h :: IsCapture(s, h)
  }

  /** Every live timer handle was handed out before. */
  predicate WellFormed(s: Controller) {
    forall h :: h in s.timers ==> h < s.nextHandle
  }

  /** The capture invariant: at most one capture interval, whose count is
      the buffer length, and the buffer never holds more than 50 frames. */
  ghost predicate CaptureInv(s: Controller) {
    && |s.captured| <= TotalNeeded
    && (forall h :: IsCapture(s, h) ==> s.timers[h].job.count == |s.captured|)
    && (forall h, h' :: IsCapture(s, h) && IsCapture(s, h') ==> h == h')
  }

  lemma StepPreservesWellFormed(s: Controller, e: Event)
    requires WellFormed(s)
    ensures WellFormed(Step(s, e).next)
    ensures Step(s, e).next.nextHandle >= s.nextHandle
  {
  }

  /** The buffer and the capture intervals are as they were (other timers may come and go). */
  ghost predicate CaptureUntouched(s: Controller, t: Controller) {
    && t.captured == s.captured
    && forall h :: IsCapture(t, h) ==> IsCapture(s, h) && t.timers[h] == s.timers[h]
  }

  lemma UntouchedKeepsCaptureInv(s: Controller, t: Controller)
    requires CaptureInv(s) && CaptureUntouched(s, t)
    ensures CaptureInv(t)
  {
  }

  /** Only a capture click and the ticks of a capture interval touch the
      buffer or the capture intervals. */
  lemma OnlyCaptureTouchesBuffer(s: Controller, e: Event)
    requires !e.CaptureClicked? && !(e.TimerFired? && IsCapture(s, e.handle))
    ensures CaptureUntouched(s, Step(s, e).next)
  {
    var t := Step(s, e).next;
    match e
    case StartAttendanceClicked =>
      assert t.timers == s.timers[s.nextHandle := Timer(AttendancePeriodMs, true, AttendanceJob)];
    case AttendanceReplied(answer) =>
      if s.attendanceInFlight > 0 && answer.AttendanceJson? && answer.matched {
        assert t.timers == s.timers[s.nextHandle := Timer(ResetDelayMs, false, ResetStatusJob)];
      }
    case _ =>
  }

  /** A capture click from an idle state starts the only capture interval, at count 0. */
  lemma CaptureClickKeepsInv(s: Controller)
    requires !CaptureActive(s)
    ensures CaptureInv(Step(s, CaptureClicked).next)
  {
    var t := Step(s, CaptureClicked).next;
    forall g | IsCapture(t, g)
      ensures g == s.nextHandle
    {
      if g != s.nextHandle {
        assert IsCapture(s, g);
      }
    }
  }

  /** A tick of the one capture interval keeps its count equal to the buffer length. */
  lemma CaptureTickKeepsInv(s: Controller, h: nat, frame: DataUrl)
    requires CaptureInv(s) && IsCapture(s, h)
    ensures CaptureInv(Step(s, TimerFired(h, frame)).next)
  {
    var t := Step(s, TimerFired(h, frame)).next;
    forall g | IsCapture(t, g)
      ensures g == h
    {
      if g != h {
        assert IsCapture(s, g);
      }
    }
  }

  /** Each event keeps the capture invariant, except a capture click while a
      capture interval is still running: that starts a second closure over
      the same buffer. */
  lemma CaptureInvPreserved(s: Controller, e: Event)
    requires CaptureInv(s)
    requires !(e.CaptureClicked? && CaptureActive(s))
    ensures CaptureInv(Step(s, e).next)
  {
    if e.CaptureClicked? {
      CaptureClickKeepsInv(s);
    } else if e.TimerFired? && IsCapture(s, e.handle) {
      CaptureTickKeepsInv(s, e.handle, e.frame);
    } else {
      OnlyCaptureTouchesBuffer(s, e);
      UntouchedKeepsCaptureInv(s, Step(s, e).next);
    }
  }

  /** Two capture clicks with a tick in between leave two capture intervals
      alive, and the older one's count no longer matches the buffer. */
  lemma DoubleCaptureBreaksInv()
    ensures var t := Run(Initial("", false), [CaptureClicked, TimerFired(0, "a"), CaptureClicked]);
      && IsCapture(t, 0) && IsCapture(t, 1)
      && !CaptureInv(t)
  {
    var s0 := Initial("", false);
    var s1 := Step(s0, CaptureClicked).next;
    var s2 := Step(s1, TimerFired(0, "a")).next;
    var s3 := Step(s2, CaptureClicked).next;
    assert s2.timers[0].job == CaptureJob(1);
    assert Run(s0, [CaptureClicked, TimerFired(0, "a"), CaptureClicked]) == s3 by {
      assert [CaptureClicked, TimerFired(0, "a"), CaptureClicked][1..] == [TimerFired(0, "a"), CaptureClicked];
      assert [TimerFired(0, "a"), CaptureClicked][1..] == [CaptureClicked];
    }
    assert IsCapture(s3, 0) && s3.timers[0].job.count == 1 && |s3.captured| == 0;
  }

  // --- a full capture run ---------------------------------------------------------

  /** The ticks of the interval at handle h, one sampled frame each. */
  function Ticks(h: nat, frames: seq<DataUrl>): (es: seq<Event>)
    ensures |es| == |frames|
    ensures forall i :: 0 <= i < |frames| ==> es[i] == TimerFired(h, frames[i])
  {
    seq(|frames|, i requires 0 <= i < |frames| => TimerFired(h, frames[i]))
  }

  lemma {:induction false} RunConcat(s: Controller, a: seq<Event>, b: seq<Event>)
    ensures Run(s, a + b) == Run(Run(s, a), b)
    decreases |a|
  {
    if |a| == 0 {
      assert a + b == b;
    } else {
      assert (a + b)[0] == a[0];
      assert (a + b)[1..] == a[1..] + b;
      RunConcat(Step(s, a[0]).next, a[1..], b);
    }
  }

  lemma RunTwo(s: Controller, a: Event, b: Event)
    ensures Run(s, [a, b]) == Step(Step(s, a).next, b).next
  {
    var s1 := Step(s, a).next;
    assert [a, b][1..] == [b];
    assert [b][1..] == [];
    assert Run(s1, [b]) == Run(Step(s1, b).next, []);
  }

  lemma RunThree(s: Controller, a: Event, b: Event, c: Event)
    ensures Run(s, [a, b, c]) == Step(Step(Step(s, a).next, b).next, c).next
  {
    assert [a, b, c][1..] == [b, c];
    RunTwo(Step(s, a).next, b, c);
  }

  /** A tick of a live capture interval runs that closure's body. */
  lemma StepCaptureTick(s: Controller, h: nat, frame: DataUrl)
    requires IsCapture(s, h)
    ensures Step(s, TimerFired(h, frame)) == CaptureTick(s, h, s.timers[h].job.count, frame)
  {
  }

  lemma RunCons(s: Controller, es: seq<Event>)
    requires |es| > 0
    ensures Run(s, es) == Run(Step(s, es[0]).next, es[1..])
  {
  }

  /** Non-terminal ticks append their frames in order and keep the count in step. */
  lemma {:induction false} CaptureTicksAppend(s: Controller, h: nat, frames: seq<DataUrl>)
    requires h in s.timers && s.timers[h] == Timer(CapturePeriodMs, true, CaptureJob(|s.captured|))
    requires |s.captured| + |frames| <= TotalNeeded
    ensures var t := Run(s, Ticks(h, frames));
      && t.captured == s.captured + frames
      && h in t.timers && t.timers[h] == Timer(CapturePeriodMs, true, CaptureJob(|t.captured|))
      && t.submitEnabled == s.submitEnabled
    decreases |frames|
  {
    if |frames| == 0 {
      TicksEmpty(h, frames);
    } else {
      var es := Ticks(h, frames);
      TicksCons(h, frames);
      RunCons(s, es);
      StepCaptureTick(s, h, frames[0]);
      var s1 := CaptureTick(s, h, |s.captured|, frames[0]).next;
      CaptureTicksAppend(s1, h, frames[1..]);
      AppendCons(s.captured, frames);
    }
  }

  lemma TicksEmpty(h: nat, frames: seq<DataUrl>)
    requires |frames| == 0
    ensures Ticks(h, frames) == []
  {
  }

  lemma TicksCons(h: nat, frames: seq<DataUrl>)
    requires |frames| > 0
    ensures Ticks(h, frames)[0] == TimerFired(h, frames[0])
    ensures Ticks(h, frames)[1..] == Ticks(h, frames[1..])
  {
  }

  lemma AppendCons<T>(a: seq<T>, b: seq<T>)
    requires |b| > 0
    ensures a + [b[0]] + b[1..] == a + b
  {
  }

  /** Ticks of a cleared handle change nothing. */
  lemma {:induction false} DeadTicks(s: Controller, h: nat, frames: seq<DataUrl>)
    requires h !in s.timers
    ensures Run(s, Ticks(h, frames)) == s
    decreases |frames|
  {
    var es := Ticks(h, frames);
    if |frames| > 0 {
      assert Step(s, es[0]).next == s;
      assert es[1..] == Ticks(h, frames[1..]);
      DeadTicks(s, h, frames[1..]);
    }
  }

  /** A capture click followed by more than 50 ticks of its interval keeps
      exactly the first 50 frames in capture order, clears the interval and
      enables submit; later ticks change nothing. */
  lemma CaptureRunTakesFifty(s: Controller, frames: seq<DataUrl>)
    requires |frames| > TotalNeeded
    ensures var t := Run(Step(s, CaptureClicked).next, Ticks(s.nextHandle, frames));
      && t.captured == frames[..TotalNeeded]
      && t.submitEnabled
      && t.status == CaptureCompleteText
      && s.nextHandle !in t.timers
  {
    var h := s.nextHandle;
    var s1 := Step(s, CaptureClicked).next;
    var first := frames[..TotalNeeded];
    var rest := frames[TotalNeeded + 1..];
    assert frames == first + [frames[TotalNeeded]] + rest;
    assert Ticks(h, frames) == Ticks(h, first) + Ticks(h, [frames[TotalNeeded]]) + Ticks(h, rest);
    RunConcat(s1, Ticks(h, first) + Ticks(h, [frames[TotalNeeded]]), Ticks(h, rest));
    RunConcat(s1, Ticks(h, first), Ticks(h, [frames[TotalNeeded]]));
    CaptureTicksAppend(s1, h, first);
    var s2 := Run(s1, Ticks(h, first));
    assert s2.captured == first;
    var s3 := Run(s2, Ticks(h, [frames[TotalNeeded]]));
    assert Ticks(h, [frames[TotalNeeded]])[1..] == [];
    assert s3 == Step(s2, TimerFired(h, frames[TotalNeeded])).next;
    DeadTicks(s3, h, rest);
  }

  /** After a full capture run, a submission with both text fields filled
      posts exactly those 50 frames in capture order. */
  lemma CaptureThenSubmit(s: Controller, frames: seq<DataUrl>, name: string, regNo: string, department: string)
    requires |frames| > TotalNeeded && name != "" && regNo != ""
    ensures var t := Run(Step(s, CaptureClicked).next, Ticks(s.nextHandle, frames));
      Step(t, SubmitClicked(name, regNo, department)).effects
        == [PostRegister(RegisterPayload(name, regNo, department, frames[..TotalNeeded]))]
  {
    CaptureRunTakesFifty(s, frames);
  }

  // --- a second capture click --------------------------------------------------------

  /** A tick of handle h leaves every other timer as it was. */
  lemma TickKeepsOtherTimer(s: Controller, h: nat, g: nat, frame: DataUrl)
    requires g != h
    ensures var t := Step(s, TimerFired(h, frame)).next;
      && (g in t.timers <==> g in s.timers)
      && (g in s.timers ==> t.timers[g] == s.timers[g])
  {
  }

  lemma {:induction false} TicksKeepOtherTimer(s: Controller, h: nat, g: nat, frames: seq<DataUrl>)
    requires g != h
    ensures var t := Run(s, Ticks(h, frames));
      && (g in t.timers <==> g in s.timers)
      && (g in s.timers ==> t.timers[g] == s.timers[g])
    decreases |frames|
  {
    if |frames| > 0 {
      TicksCons(h, frames);
      RunCons(s, Ticks(h, frames));
      TickKeepsOtherTimer(s, h, g, frames[0]);
      TicksKeepOtherTimer(Step(s, TimerFired(h, frames[0])).next, h, g, frames[1..]);
    }
  }

  /** Two capture clicks in a row: an empty buffer and two intervals at count 0. */
  lemma TwoCaptureClicks(s: Controller)
    ensures var t := Run(s, [CaptureClicked, CaptureClicked]);
      && t.captured == []
      && s.nextHandle in t.timers && t.timers[s.nextHandle] == Timer(CapturePeriodMs, true, CaptureJob(0))
      && s.nextHandle + 1 in t.timers && t.timers[s.nextHandle + 1] == Timer(CapturePeriodMs, true, CaptureJob(0))
  {
    RunTwo(s, CaptureClicked, CaptureClicked);
    StepCapture(s);
    StepCapture(CaptureFaces(s).next);
  }

  lemma StepCapture(s: Controller)
    ensures Step(s, CaptureClicked) == CaptureFaces(s)
  {
  }

  /** One tick of a capture interval whose count is below 50 appends its frame. */
  lemma OneCaptureTick(s: Controller, h: nat, frame: DataUrl)
    requires h in s.timers && s.timers[h].job.CaptureJob? && s.timers[h].job.count < TotalNeeded
    ensures Run(s, [TimerFired(h, frame)]).captured == s.captured + [frame]
  {
    RunCons(s, [TimerFired(h, frame)]);
    assert [TimerFired(h, frame)][1..] == [];
    StepCaptureTick(s, h, frame);
  }

  /** Two capture intervals at count 0 over an empty buffer: the first
      appends its 50 frames and the second still appends one more. */
  lemma TwoIntervalsOverfill(s: Controller, h0: nat, h1: nat, frames: seq<DataUrl>, extra: DataUrl)
    requires h0 != h1 && s.captured == [] && |frames| == TotalNeeded
    requires h0 in s.timers && s.timers[h0] == Timer(CapturePeriodMs, true, CaptureJob(0))
    requires h1 in s.timers && s.timers[h1] == Timer(CapturePeriodMs, true, CaptureJob(0))
    ensures Run(s, Ticks(h0, frames) + [TimerFired(h1, extra)]).captured == frames + [extra]
  {
    CaptureTicksAppend(s, h0, frames);
    TicksKeepOtherTimer(s, h0, h1, frames);
    var s1 := Run(s, Ticks(h0, frames));
    assert s1.captured == frames;
    OneCaptureTick(s1, h1, extra);
    RunConcat(s, Ticks(h0, frames), [TimerFired(h1, extra)]);
  }

  /** As written: two capture clicks start two intervals at count 0 over the
      same buffer; once the first has appended its 50 frames, a tick of the
      second still appends, so the buffer outgrows 50 frames. */
  lemma DoubleCaptureOverfills(s: Controller, frames: seq<DataUrl>, extra: DataUrl)
    requires |frames| == TotalNeeded
    ensures var t := Run(Run(s, [CaptureClicked, CaptureClicked]),
                         Ticks(s.nextHandle, frames) + [TimerFired(s.nextHandle + 1, extra)]);
      && t.captured == frames + [extra]
      && |t.captured| > TotalNeeded
  {
    TwoCaptureClicks(s);
    TwoIntervalsOverfill(Run(s, [CaptureClicked, CaptureClicked]), s.nextHandle, s.nextHandle + 1, frames, extra);
  }

  /** The timers with every capture interval cleared. */
  function ClearCaptures(timers: map<nat, Timer>): (r: map<nat, Timer>)
    ensures forall h :: h in r <==> h in timers && !timers[h].job.CaptureJob?
    ensures forall h :: h in r ==> r[h] == timers[h]
  {
    map h | h in timers && !timers[h].job.CaptureJob? :: timers[h]
  }

  /** Corrected `captureFaces()`: clear a capture interval still running
      before starting the new one (with at most one running, clearing every
      capture interval is clearing that one). */
  function CaptureFacesFixed(s: Controller): (t: Transition)
    ensures t.next.captured == [] && t.effects == []
    ensures forall h :: IsCapture(t.next, h) <==> h == s.nextHandle
    ensures s.nextHandle in t.next.timers
    ensures t.next.timers[s.nextHandle] == Timer(CapturePeriodMs, true, CaptureJob(0))
    ensures t.next.timers == ClearCaptures(s.timers)[s.nextHandle := Timer(CapturePeriodMs, true, CaptureJob(0))]
  {
    CaptureFaces(s.(timers := ClearCaptures(s.timers)))
  }

  /** The controller with the corrected capture click. */
  function StepCaptureFixed(s: Controller, e: Event): Transition {
    if e.CaptureClicked? then CaptureFacesFixed(s) else Step(s, e)
  }

  function RunCaptureFixed(s: Controller, es: seq<Event>): Controller
    decreases |es|
  {
    if |es| == 0 then s else RunCaptureFixed(StepCaptureFixed(s, es[0]).next, es[1..])
  }

  /** With the correction every event keeps the capture invariant, a second
      capture click included. */
  lemma FixedCaptureKeepsInv(s: Controller, e: Event)
    requires CaptureInv(s)
    ensures CaptureInv(StepCaptureFixed(s, e).next)
  {
    if !e.CaptureClicked? {
      CaptureInvPreserved(s, e);
    }
  }

  /** With the correction no sequence of events fills the buffer past 50 frames. */
  lemma {:induction false} FixedCaptureNeverOverfills(s: Controller, es: seq<Event>)
    requires CaptureInv(s)
    ensures CaptureInv(RunCaptureFixed(s, es))
    ensures |RunCaptureFixed(s, es).captured| <= TotalNeeded
    decreases |es|
  {
    if |es| > 0 {
      FixedCaptureKeepsInv(s, es[0]);
      FixedCaptureNeverOverfills(StepCaptureFixed(s, es[0]).next, es[1..]);
    }
  }

  // --- submission and its reply ---------------------------------------------------

  /** A submission sends a request exactly when name, registration number
      and buffer are all non-empty, and otherwise leaves the state alone. */
  lemma SubmitRequestsIffComplete(s: Controller, name: string, regNo: string, department: string)
    ensures var t := Step(s, SubmitClicked(name, regNo, department));
      && ((exists p :: PostRegister(p) in t.effects) <==> name != "" && regNo != "" && |s.captured| > 0)
      && (t.next.registerInFlight > s.registerInFlight <==> name != "" && regNo != "" && |s.captured| > 0)
      && (t.next == s <==> !(name != "" && regNo != "" && |s.captured| > 0))
  {
    var t := Step(s, SubmitClicked(name, regNo, department));
    if CanSubmit(name, regNo, s.captured) {
      assert PostRegister(RegisterPayload(name, regNo, department, s.captured)) in t.effects;
      assert t.next.registerInFlight != s.registerInFlight;
    }
  }

  /** The reply's outcome does not depend on the HTTP status: the page reads
      only the JSON body. */
  lemma RegisterIgnoresHttpStatus(s: Controller, code1: nat, code2: nat, status: Option<string>, message: Option<string>)
    ensures Step(s, RegisterReplied(RegisterJson(code1, status, message)))
         == Step(s, RegisterReplied(RegisterJson(code2, status, message)))
  {
  }

  /** Only a body whose status is "success" leads to the home page, and only
      for a request that was actually sent. */
  lemma RegisterNavigatesIffSuccess(s: Controller, reply: RegisterReply)
    ensures Navigate("/") in Step(s, RegisterReplied(reply)).effects
        <==> s.registerInFlight > 0 && reply.RegisterJson? && reply.status == Some("success")
  {
  }

  // --- buttons and timers -----------------------------------------------------------

  /** Nothing in the page disables submit once it is enabled. */
  lemma SubmitStaysEnabled(s: Controller, e: Event)
    requires s.submitEnabled
    ensures Step(s, e).next.submitEnabled
  {
  }

  lemma {:induction false} RunKeepsSubmitEnabled(s: Controller, es: seq<Event>)
    requires s.submitEnabled
    ensures Run(s, es).submitEnabled
    decreases |es|
  {
    if |es| > 0 {
      SubmitStaysEnabled(s, es[0]);
      RunKeepsSubmitEnabled(Step(s, es[0]).next, es[1..]);
    }
  }

  /** An attendance tick posts its frame exactly when a stream is attached. */
  lemma AttendanceTickNeedsStream(s: Controller, h: nat, frame: DataUrl)
    requires IsAttendanceLoop(s, h)
    ensures var t := Step(s, TimerFired(h, frame));
      && (PostAttendance(frame) in t.effects <==> s.stream.Some?)
      && (s.stream.None? ==> t.next == s)
  {
  }

  /** Only `startAttendance()` creates an attendance interval or changes
      `attendanceInterval`; in particular a reply arriving after a stop
      never restarts the loop. */
  lemma OnlyStartStartsLoop(s: Controller, e: Event)
    requires !e.StartAttendanceClicked?
    ensures var t := Step(s, e).next;
      && t.attendanceInterval == s.attendanceInterval
      && (forall h :: IsAttendanceLoop(t, h) ==> IsAttendanceLoop(s, h))
  {
    var t := Step(s, e).next;
    match e
    case CaptureClicked =>
      assert t.timers == s.timers[s.nextHandle := Timer(CapturePeriodMs, true, CaptureJob(0))];
    case AttendanceReplied(answer) =>
      if s.attendanceInFlight > 0 && answer.AttendanceJson? && answer.matched {
        assert t.timers == s.timers[s.nextHandle := Timer(ResetDelayMs, false, ResetStatusJob)];
      }
    case TimerFired(h, frame) =>
      if h in s.timers && s.timers[h].job.CaptureJob? && s.timers[h].job.count < TotalNeeded {
        assert t.timers == s.timers[h := Timer(CapturePeriodMs, true, CaptureJob(s.timers[h].job.count + 1))];
      }
    case _ =>
  }

  /** A reply never touches the stream. */
  lemma ReplyKeepsStream(s: Controller, answer: AttendanceReply)
    ensures Step(s, AttendanceReplied(answer)).next.stream == s.stream
  {
  }

  /** A second grant replaces the stream without stopping the first one's
      tracks: a later stop reaches exactly the new stream's tracks. */
  lemma GrantOrphansOldTracks(s: Controller, st: Stream)
    ensures Step(s, CameraGranted(st)).effects == []
    ensures forall k :: StopTrack(k) in StopCamera(Step(s, CameraGranted(st)).next).effects <==> k in st.tracks
  {
    StopCameraIdempotent(Step(s, CameraGranted(st)).next);
  }

  /** A refused camera keeps the stream there was, so a later stop stops the same tracks. */
  lemma DeniedKeepsStream(s: Controller, err: string)
    ensures Step(s, CameraDenied(err)).next.stream == s.stream
    ensures StopCamera(Step(s, CameraDenied(err)).next).effects == StopCamera(s).effects
  {
  }

  /** A reset scheduled before a stop still fires afterwards and replaces
      "System Stopped." with "Scanning..." in black. */
  lemma ResetOutlivesStop(s: Controller, h: nat, frame: DataUrl)
    requires h in s.timers && s.timers[h].job == ResetStatusJob && s.attendanceInterval != Some(h)
    ensures var t := Run(s, [StopAttendanceClicked, TimerFired(h, frame)]);
      t.status == ScanningText && t.statusColor == Black && t.stream == None
  {
    var s1 := StopAttendance(s).next;
    assert s1.timers == ClearTimer(s.timers, s.attendanceInterval);
    assert h in s1.timers && s1.timers[h].job == ResetStatusJob;
    assert Step(s1, TimerFired(h, frame)) == ResetStatus(s1, h);
    RunTwo(s, StopAttendanceClicked, TimerFired(h, frame));
  }

  // --- restarting attendance ------------------------------------------------------

  lemma StepStart(s: Controller)
    ensures Step(s, StartAttendanceClicked) == StartAttendance(s)
  {
  }

  lemma StepStop(s: Controller)
    ensures Step(s, StopAttendanceClicked) == StopAttendance(s)
  {
  }

  /** The three handlers in a row: the second start overwrites the handle
      of the first, so the stop clears only the second interval. */
  lemma StartStartStop(s: Controller)
    ensures var t := StopAttendance(StartAttendance(StartAttendance(s).next).next).next;
      t.status == StoppedText && IsAttendanceLoop(t, s.nextHandle)
  {
    var h := s.nextHandle;
    var s1 := StartAttendance(s).next;
    var s2 := StartAttendance(s1).next;
    assert s2.attendanceInterval == Some(h + 1);
    assert IsAttendanceLoop(s2, h);
  }

  /** Start, start, stop as written: the handle of the first start survives. */
  lemma RestartKeepsFirstLoop(s: Controller)
    ensures var t := Run(s, [StartAttendanceClicked, StartAttendanceClicked, StopAttendanceClicked]);
      && t.status == StoppedText
      && IsAttendanceLoop(t, s.nextHandle)
  {
    var s1 := StartAttendance(s).next;
    var s2 := StartAttendance(s1).next;
    RunThree(s, StartAttendanceClicked, StartAttendanceClicked, StopAttendanceClicked);
    StepStart(s);
    StepStart(s1);
    StepStop(s2);
    StartStartStop(s);
  }

  /** A surviving attendance interval posts frames again as soon as a stream is attached. */
  lemma OrphanLoopPostsOnGrant(s: Controller, h: nat, st: Stream, frame: DataUrl)
    requires IsAttendanceLoop(s, h)
    ensures Step(Step(s, CameraGranted(st)).next, TimerFired(h, frame)).effects == [PostAttendance(frame)]
  {
    var s1 := Step(s, CameraGranted(st)).next;
    assert s1.timers == s.timers && s1.stream == Some(st);
    assert Step(s1, TimerFired(h, frame)) == AttendanceTick(s1, frame);
  }

  /** As written: start, start, stop leaves the first attendance interval
      running, and once a camera stream arrives (a start's camera request
      may still be pending) it keeps posting frames. */
  lemma RestartLeaksLoop(s: Controller, st: Stream, frame: DataUrl)
    ensures var t := Run(s, [StartAttendanceClicked, StartAttendanceClicked, StopAttendanceClicked]);
      && t.status == StoppedText
      && IsAttendanceLoop(t, s.nextHandle)
      && Step(Step(t, CameraGranted(st)).next, TimerFired(s.nextHandle, frame)).effects == [PostAttendance(frame)]
  {
    RestartKeepsFirstLoop(s);
    var t := Run(s, [StartAttendanceClicked, StartAttendanceClicked, StopAttendanceClicked]);
    OrphanLoopPostsOnGrant(t, s.nextHandle, st, frame);
  }

  /** Corrected `startAttendance()`: clear the previous interval before
      starting a new one. */
  function StartAttendanceFixed(s: Controller): (t: Transition)
    ensures t.effects == [RequestCamera]
    ensures t.next.attendanceInterval == Some(s.nextHandle)
    ensures t.next.timers == ClearTimer(s.timers, s.attendanceInterval)[s.nextHandle := Timer(AttendancePeriodMs, true, AttendanceJob)]
    ensures t.next.status == ScanningStartedText
  {
    StartAttendance(s.(timers := ClearTimer(s.timers, s.attendanceInterval)))
  }

  /** The controller with the corrected restart. */
  function StepFixed(s: Controller, e: Event): Transition {
    if e.StartAttendanceClicked? then StartAttendanceFixed(s) else Step(s, e)
  }

  function RunFixed(s: Controller, es: seq<Event>): Controller
    decreases |es|
  {
    if |es| == 0 then s else RunFixed(StepFixed(s, es[0]).next, es[1..])
  }

  /** Every live attendance interval is the one `attendanceInterval` names. */
  ghost predicate SingleLoop(s: Controller) {
    forall h: nat :: IsAttendanceLoop(s, h) ==> s.attendanceInterval == Some(h)
  }

  lemma FixedStartKeepsSingleLoop(s: Controller)
    requires SingleLoop(s)
    ensures SingleLoop(StartAttendanceFixed(s).next)
  {
    var t := StartAttendanceFixed(s).next;
    forall h: nat | IsAttendanceLoop(t, h)
      ensures t.attendanceInterval == Some(h)
    {
      if h != s.nextHandle {
        assert IsAttendanceLoop(s, h);
      }
    }
  }

  /** The corrected controller keeps at most one attendance interval. */
  lemma FixedStepKeepsSingleLoop(s: Controller, e: Event)
    requires SingleLoop(s)
    ensures SingleLoop(StepFixed(s, e).next)
  {
    if e.StartAttendanceClicked? {
      FixedStartKeepsSingleLoop(s);
    } else {
      OnlyStartStartsLoop(s, e);
    }
  }

  /** With the correction, stopping leaves no attendance interval running. */
  lemma FixedStopEndsLoop(s: Controller)
    requires SingleLoop(s)
    ensures forall h :: !IsAttendanceLoop(StepFixed(s, StopAttendanceClicked).next, h)
  {
    var t := StepFixed(s, StopAttendanceClicked).next;
    forall h | IsAttendanceLoop(t, h)
      ensures false
    {
      assert IsAttendanceLoop(s, h);
    }
  }

  /** Start, start, stop on the corrected controller leaves no interval, from
      any state with at most one. */
  lemma FixedRestartThenStop(s: Controller)
    requires SingleLoop(s)
    ensures var t := RunFixed(s, [StartAttendanceClicked, StartAttendanceClicked, StopAttendanceClicked]);
      && t.status == StoppedText
      && forall h :: !IsAttendanceLoop(t, h)
  {
    var es := [StartAttendanceClicked, StartAttendanceClicked, StopAttendanceClicked];
    var s1 := StepFixed(s, StartAttendanceClicked).next;
    FixedStepKeepsSingleLoop(s, StartAttendanceClicked);
    var s2 := StepFixed(s1, StartAttendanceClicked).next;
    FixedStepKeepsSingleLoop(s1, StartAttendanceClicked);
    FixedStopEndsLoop(s2);
    assert es[1..] == [StartAttendanceClicked, StopAttendanceClicked];
    assert es[1..][1..] == [StopAttendanceClicked];
  }
}

=== FILE: lex_order.dfy ===
/** Python's ordering of `str` values, which `sorted()` uses: compare code
    points left to right; a proper prefix sorts first. */
module LexOrder {

  predicate Less(a: string, b: string)
    decreases |a|
  {
    if |a| == 0 then |b| > 0
    else if |b| == 0 then false
    else if a[0] != b[0] then a[0] < b[0]
    else Less(a[1..], b[1..])
  }

  predicate LessEq(a: string, b: string) {
    a == b || Less(a, b)
  }

  lemma {:induction false} LessIrreflexive(a: string)
    ensures !Less(a, a)
    decreases |a|
  {
    if |a| > 0 {
      LessIrreflexive(a[1..]);
    }
  }

  lemma {:induction false} LessAsymmetric(a: string, b: string)
    ensures !(Less(a, b) && Less(b, a))
    decreases |a|
  {
    if |a| > 0 && |b| > 0 && a[0] == b[0] {
      LessAsymmetric(a[1..], b[1..]);
    }
  }

  lemma {:induction false} LessTransitive(a: string, b: string, c: string)
    requires Less(a, b) && Less(b, c)
    ensures Less(a, c)
    decreases |a|
  {
    if |a| > 0 && a[0] == b[0] && b[0] == c[0] {
      LessTransitive(a[1..], b[1..], c[1..]);
    }
  }

  lemma {:induction false} LessTotal(a: string, b: string)
    requires a != b
    ensures Less(a, b) || Less(b, a)
    decreases |a|
  {
    if |a| > 0 && |b| > 0 && a[0] == b[0] {
      assert a == [a[0]] + a[1..];
      assert b == [b[0]] + b[1..];
      LessTotal(a[1..], b[1..]);
    }
  }

  /** A common prefix does not change the order. */
  lemma {:induction false} LessCommonPrefix(p: string, a: string, b: string)
    ensures Less(p + a, p + b) <==> Less(a, b)
    decreases |p|
  {
    if |p| == 0 {
      assert p + a == a && p + b == b;
    } else {
      assert (p + a)[0] == (p + b)[0];
      assert (p + a)[1..] == p[1..] + a;
      assert (p + b)[1..] == p[1..] + b;
      LessCommonPrefix(p[1..], a, b);
    }
  }
}

=== FILE: recognition.dfy ===
/** The recognition side of app.py: the in-memory roster `load_known_faces`
    builds, the nearest-neighbour decision of `/api/mark_attendance`, and
    the handler around it. Face detection, the embedding network and the
    Euclidean norm are parameters; embeddings are vectors of reals. */
module Recognition {
  import opened Base
  import TextFields
  import AttendanceLog

  type Embedding = seq<real>

  /** What decoding an image and running the face detector yields. */
  datatype Detection = Face(embedding: Embedding) | NoFace | Undecodable(reason: string)

  /** The three module-level lists `known_embeddings`, `known_reg_nos`, `known_names`. */
  datatype Known = Known(embeddings: seq<Embedding>, regNos: seq<string>, names: seq<string>)

  /** The lists are parallel: index i of each describes the same student. */
  predicate Parallel(k: Known) {
    |k.embeddings| == |k.regNos| == |k.names|
  }

  /** One entry of `os.listdir(DATASET_FOLDER)`: the directory name is the
      registration number; `embedding.npy` and `info.txt` may be missing. */
  datatype Entry = Entry(name: string, isDir: bool, embedding: Option<Embedding>, info: Option<string>)

  /** An entry `load_known_faces` takes: a directory holding both files. */
  predicate Loadable(e: Entry) {
    e.isDir && e.embedding.Some? && e.info.Some?
  }

  /** The loadable entries, in listing order. */
  function LoadableEntries(listing: seq<Entry>): (r: seq<Entry>)
    ensures |r| <= |listing|
    ensures forall i :: 0 <= i < |r| ==> Loadable(r[i])
  {
    if |listing| == 0 then []
    else LoadableEntries(listing[..|listing| - 1]) + (if Loadable(listing[|listing| - 1]) then [listing[|listing| - 1]] else [])
  }

  /** Every loadable entry is kept, as often as it is listed, and nothing else is. */
  lemma {:induction false} LoadableEntriesComplete(listing: seq<Entry>)
    ensures forall e :: multiset(LoadableEntries(listing))[e] == if Loadable(e) then multiset(listing)[e] else 0
  {
    if |listing| > 0 {
      var n := |listing| - 1;
      LoadableEntriesComplete(listing[..n]);
      assert listing == listing[..n] + [listing[n]];
    }
  }

  /** Taking the loadable entries commutes with concatenating listings, so
      they come out in listing order. */
  lemma {:induction false} LoadableEntriesAppend(a: seq<Entry>, b: seq<Entry>)
    ensures LoadableEntries(a + b) == LoadableEntries(a) + LoadableEntries(b)
    decreases |b|
  {
    if |b| == 0 {
      assert a + b == a;
    } else {
      LoadableEntriesAppend(a, b[..|b| - 1]);
      assert (a + b)[..|a + b| - 1] == a + b[..|b| - 1];
    }
  }

  /** `load_known_faces()`: reset the three lists, then append embedding,
      registration number and name (first field of `info.txt`) together
      for every loadable directory. A missing dataset folder leaves them empty. */
  method LoadKnownFaces(datasetExists: bool, listing: seq<Entry>) returns (known: Known)
    ensures Parallel(known)
    ensures !datasetExists ==> known == Known([], [], [])
    ensures datasetExists ==> |known.embeddings| == |LoadableEntries(listing)|
    ensures datasetExists ==> forall i :: 0 <= i < |known.embeddings| ==>
      var e := LoadableEntries(listing)[i];
      && known.embeddings[i] == e.embedding.value
      && known.regNos[i] == e.name
      && known.names[i] == TextFields.FirstField(e.info.value)
  {
    known := Known([], [], []);
    if !datasetExists {
      return;
    }
    var n := 0;
    while n < |listing|
      invariant 0 <= n <= |listing|
      invariant Parallel(known)
      invariant |known.embeddings| == |LoadableEntries(listing[..n])|
      invariant forall i :: 0 <= i < |known.embeddings| ==>
        var e := LoadableEntries(listing[..n])[i];
        && known.embeddings[i] == e.embedding.value
        && known.regNos[i] == e.name
        && known.names[i] == TextFields.FirstField(e.info.value)
    {
      var e := listing[n];
      assert listing[..n + 1][..n] == listing[..n];
      if e.isDir && e.embedding.Some? && e.info.Some? {
        known := Known(known.embeddings + [e.embedding.value],
                       known.regNos + [e.name],
                       known.names + [TextFields.FirstField(e.info.value)]);
      }
      n := n + 1;
    }
    assert listing[..n] == listing;
  }

  // --- Matching -----------------------------------------------------------

  /** `if min_dist < 0.8`: the FaceNet distance threshold. */
  const MatchThreshold: real := 0.8

  /** `min(dist_list)`. */
  function MinDistance(dists: seq<real>): (m: real)
    requires |dists| > 0
    ensures m in dists
    ensures forall i :: 0 <= i < |dists| ==> m <= dists[i]
  {
    if |dists| == 1 then dists[0]
    else
      var rest := MinDistance(dists[1..]);
      assert forall i :: 1 <= i < |dists| ==> dists[i] == dists[1..][i - 1];
      if dists[0] <= rest then dists[0] else rest
  }

  /** `dist_list.index(x)`: the first position holding x. */
  function IndexOf(dists: seq<real>, x: real): (i: nat)
    requires x in dists
    ensures i < |dists| && dists[i] == x
    ensures forall j :: 0 <= j < i ==> dists[j] != x
  {
    if dists[0] == x then 0 else 1 + IndexOf(dists[1..], x)
  }

  /** i is the first index at which the least distance occurs. */
  predicate FirstArgMin(dists: seq<real>, i: int) {
    && 0 <= i < |dists|
    && (forall j :: 0 <= j < |dists| ==> dists[i] <= dists[j])
    && (forall j :: 0 <= j < i ==> dists[i] < dists[j])
  }

  /** The decision `/api/mark_attendance` returns. */
  datatype MatchReply = NoMatch | Matched(student: string, regNo: string)

  /** The matching logic: no match on an empty roster; otherwise the first
      nearest known face, accepted iff its distance is below the threshold. */
  function SelectMatch(dists: seq<real>, names: seq<string>, regNos: seq<string>): (r: MatchReply)
    requires |dists| == |names| == |regNos|
    ensures |dists| == 0 ==> r == NoMatch
    ensures r.Matched? <==> exists j :: 0 <= j < |dists| && dists[j] < MatchThreshold
    ensures r.Matched? ==> exists i :: FirstArgMin(dists, i) && r == Matched(names[i], regNos[i])
  {
    if |dists| == 0 then NoMatch
    else
      var m := MinDistance(dists);
      var i := IndexOf(dists, m);
      assert FirstArgMin(dists, i);
      if m < MatchThreshold then Matched(names[i], regNos[i]) else NoMatch
  }

  /** One distance per known embedding, in roster order. */
  function Distances(current: Embedding, known: seq<Embedding>, distance: (Embedding, Embedding) -> real): (d: seq<real>)
    ensures |d| == |known|
    ensures forall i :: 0 <= i < |known| ==> d[i] == distance(current, known[i])
  {
    seq(|known|, i requires 0 <= i < |known| => distance(current, known[i]))
  }

  // --- The handler ----------------------------------------------------------

  /** The HTTP outcome of `/api/mark_attendance`. */
  datatype AttendanceResponse =
    | MissingImage                 // 400 {"status": "error"}
    | Crashed(reason: string)      // an uncaught decoding error: Flask's 500
    | Decided(reply: MatchReply)   // 200 {"match": ...}

  datatype MarkOutcome = MarkOutcome(response: AttendanceResponse, sheet: Option<seq<AttendanceLog.Row>>)

  /** `api_mark_attendance()`: strip the data-URL header, detect a face,
      pick the nearest known student and, on a match, mark the sheet. */
  function MarkAttendanceApi(image: Option<string>, detect: string -> Detection,
                             distance: (Embedding, Embedding) -> real, known: Known,
                             sheet: Option<seq<AttendanceLog.Row>>, date: string, time: string): (r: MarkOutcome)
    requires Parallel(known)
    ensures image.None? || image == Some("") ==> r == MarkOutcome(MissingImage, sheet)
    ensures r.response.Decided? && r.response.reply.Matched? ==>
      && image.Some?
      && detect(TextFields.StripHeader(image.value)).Face?
      && r.sheet == Some(AttendanceLog.MarkAttendanceAsRead(sheet, r.response.reply.student, r.response.reply.regNo, date, time).rows)
    ensures !(r.response.Decided? && r.response.reply.Matched?) ==> r.sheet == sheet
    ensures image.Some? && image.value != "" && detect(TextFields.StripHeader(image.value)).Face? ==>
      r.response == Decided(SelectMatch(Distances(detect(TextFields.StripHeader(image.value)).embedding, known.embeddings, distance), known.names, known.regNos))
    ensures image.Some? && image.value != "" && detect(TextFields.StripHeader(image.value)).NoFace? ==>
      r == MarkOutcome(Decided(NoMatch), sheet)
    ensures image.Some? && image.value != "" && detect(TextFields.StripHeader(image.value)).Undecodable? ==>
      r == MarkOutcome(Crashed(detect(TextFields.StripHeader(image.value)).reason), sheet)
  {
    if image.None? || image.value == "" then MarkOutcome(MissingImage, sheet)
    else
      match detect(TextFields.StripHeader(image.value))
      case Undecodable(reason) => MarkOutcome(Crashed(reason), sheet)
      case NoFace => MarkOutcome(Decided(NoMatch), sheet)
      case Face(current) =>
        var reply := SelectMatch(Distances(current, known.embeddings, distance), known.names, known.regNos);
        match reply
        case NoMatch => MarkOutcome(Decided(NoMatch), sheet)
        case Matched(name, regNo) =>
          MarkOutcome(Decided(reply), Some(AttendanceLog.MarkAttendanceAsRead(sheet, name, regNo, date, time).rows))
  }

  /** While the sheet holds some RegNo that is not a plain number, two
      frames of the same student on one date leave at most one row per
      student and day. */
  lemma RepeatedMatchesMarkOnce(image: Option<string>, detect: string -> Detection,
                                distance: (Embedding, Embedding) -> real, known: Known,
                                rows: seq<AttendanceLog.Row>, date: string, t1: string, t2: string)
    requires Parallel(known)
    requires AttendanceLog.OncePerDay(rows)
    requires exists k :: 0 <= k < |rows| && !AttendanceLog.Numeric(rows[k].regNo)
    ensures var r1 := MarkAttendanceApi(image, detect, distance, known, Some(rows), date, t1);
      var r2 := MarkAttendanceApi(image, detect, distance, known, r1.sheet, date, t2);
      && r1.sheet.Some? && r2.sheet.Some?
      && AttendanceLog.OncePerDay(r2.sheet.value)
      && |r2.sheet.value| <= |rows| + 1
  {
    var r1 := MarkAttendanceApi(image, detect, distance, known, Some(rows), date, t1);
    if r1.response.Decided? && r1.response.reply.Matched? {
      var m := r1.response.reply;
      var k :| 0 <= k < |rows| && !AttendanceLog.Numeric(rows[k].regNo);
      AttendanceLog.AsReadAgreesOnTextColumn(rows, m.student, m.regNo, date, t1);
      AttendanceLog.MarkPreservesOncePerDay(rows, m.student, m.regNo, date, t1);
      var rows1 := r1.sheet.value;
      assert rows1[k] == rows[k];
      AttendanceLog.AsReadAgreesOnTextColumn(rows1, m.student, m.regNo, date, t2);
      AttendanceLog.MarkPreservesOncePerDay(rows1, m.student, m.regNo, date, t2);
      AttendanceLog.MarkTwiceSameDay(Some(rows), m.student, m.regNo, date, t1, t2);
    }
  }

  /** On a fresh sheet, a roster of one student with an all-digit RegNo is
      marked twice when two frames of that student arrive on one day. */
  lemma NumericRosterMarkedTwice()
    ensures var detect := (s: string) => Face([0.0]);
      var distance := (a: Embedding, b: Embedding) => 0.0;
      var known := Known([[0.0]], ["21001"], ["Asha"]);
      var r1 := MarkAttendanceApi(Some("frame"), detect, distance, known, None, "2025-01-06", "09:00:00");
      var r2 := MarkAttendanceApi(Some("frame"), detect, distance, known, r1.sheet, "2025-01-06", "09:00:03");
      && r2.response == Decided(Matched("Asha", "21001"))
      && r2.sheet.Some? && |r2.sheet.value| == 2
      && !AttendanceLog.OncePerDay(r2.sheet.value)
  {
    var detect := (s: string) => Face([0.0]);
    var distance := (a: Embedding, b: Embedding) => 0.0;
    var known := Known([[0.0]], ["21001"], ["Asha"]);
    var dists := Distances([0.0], known.embeddings, distance);
    assert dists[0] < MatchThreshold;
    var reply := SelectMatch(dists, known.names, known.regNos);
    assert reply == Matched("Asha", "21001");
    AttendanceLog.NumericRegNoMarkedTwice();
  }
}

=== FILE: registration.dfy ===
/** `/api/register` (app.py): validate the request, create the student's
    folder, embed every uploaded frame, and store the averaged embedding
    together with `info.txt` = `name,reg_no`. The dataset folder is a map
    from registration number to that student's two files. */
module Registration {
  import opened Base
  import TextFields
  import Recognition

  /** The two files of `dataset/<reg_no>/`. */
  datatype Folder = Folder(embedding: Option<Recognition.Embedding>, info: Option<string>)

  type Dataset = map<string, Folder>

  /** The JSON reply `{status, message}` and its HTTP code. */
  datatype Reply = Reply(code: nat, status: string, message: string)

  datatype Outcome = Outcome(reply: Reply, dataset: Dataset)

  const MissingData := Reply(400, "error", "Missing data")
  const NoFaces := Reply(400, "error", "No faces detected")

  /** Python truthiness of an optional JSON string: present and non-empty. */
  predicate Given(v: Option<string>) {
    v.Some? && v.value != ""
  }

  /** `not name or not reg_no or not images_b64` is false. */
  predicate Complete(name: Option<string>, regNo: Option<string>, images: Option<seq<string>>) {
    Given(name) && Given(regNo) && images.Some? && |images.value| > 0
  }

  /** The embeddings the loop collects, or the first decoding error. */
  datatype Collected = Embedded(embeddings: seq<Recognition.Embedding>) | Failed(reason: string)

  /** What the detector makes of the i-th upload once its header is stripped. */
  function DetectAt(images: seq<string>, detect: string -> Recognition.Detection, i: nat): Recognition.Detection
    requires i < |images|
  {
    detect(TextFields.StripHeader(images[i]))
  }

  /** Some upload cannot be decoded. */
  predicate SomeUndecodable(images: seq<string>, detect: string -> Recognition.Detection) {
    exists i :: 0 <= i < |images| && DetectAt(images, detect, i).Undecodable?
  }

  /** The i-th upload is the first one that cannot be decoded, and the error it raises carries `reason`. */
  predicate FirstUndecodable(images: seq<string>, detect: string -> Recognition.Detection, i: nat, reason: string) {
    && i < |images|
    && DetectAt(images, detect, i) == Recognition.Undecodable(reason)
    && forall j :: 0 <= j < i ==> !DetectAt(images, detect, j).Undecodable?
  }

  /** The `for i, img_str in enumerate(images_b64)` loop: frames without a
      face are skipped; an undecodable frame raises and ends the loop. */
  function Collect(images: seq<string>, detect: string -> Recognition.Detection): (c: Collected)
    ensures c.Failed? ==> exists i: nat :: FirstUndecodable(images, detect, i, c.reason)
    decreases |images|
  {
    if |images| == 0 then Embedded([])
    else
      var first := DetectAt(images, detect, 0);
      var rest := Collect(images[1..], detect);
      assert !first.Undecodable? && rest.Failed? ==> exists i: nat :: FirstUndecodable(images, detect, i, rest.reason) by {
        if !first.Undecodable? && rest.Failed? {
          var k: nat :| FirstUndecodable(images[1..], detect, k, rest.reason);
          forall j | 0 <= j < k + 1
            ensures !DetectAt(images, detect, j).Undecodable?
          {
            if j > 0 {
              assert DetectAt(images, detect, j) == DetectAt(images[1..], detect, j - 1);
            }
          }
          assert DetectAt(images, detect, k + 1) == DetectAt(images[1..], detect, k);
          assert FirstUndecodable(images, detect, k + 1, rest.reason);
        }
      }
      assert first.Undecodable? ==> FirstUndecodable(images, detect, 0, first.reason);
      match first
      case Undecodable(reason) => Failed(reason)
      case NoFace => rest
      case Face(e) =>
        match rest
        case Failed(reason) => Failed(reason)
        case Embedded(es) => Embedded([e] + es)
  }

  /** What the detector makes of every upload, in upload order. */
  function Detections(images: seq<string>, detect: string -> Recognition.Detection): (ds: seq<Recognition.Detection>)
    ensures |ds| == |images|
    ensures forall i :: 0 <= i < |images| ==> ds[i] == DetectAt(images, detect, i)
  {
    seq(|images|, i requires 0 <= i < |images| => DetectAt(images, detect, i))
  }

  /** The embeddings of the detections that found a face, in order. */
  function Faces(ds: seq<Recognition.Detection>): seq<Recognition.Embedding> {
    if |ds| == 0 then []
    else Faces(ds[..|ds| - 1]) + (if ds[|ds| - 1].Face? then [ds[|ds| - 1].embedding] else [])
  }

  /** Keeping the faces commutes with concatenation. */
  lemma {:induction false} FacesAppend(a: seq<Recognition.Detection>, b: seq<Recognition.Detection>)
    ensures Faces(a + b) == Faces(a) + Faces(b)
    decreases |b|
  {
    if |b| == 0 {
      assert a + b == a;
    } else {
      FacesAppend(a, b[..|b| - 1]);
      assert (a + b)[..|a + b| - 1] == a + b[..|b| - 1];
    }
  }

  /** The loop raises exactly when some upload cannot be decoded. */
  lemma {:induction false} CollectFailsIffUndecodable(images: seq<string>, detect: string -> Recognition.Detection)
    ensures Collect(images, detect).Failed? <==> SomeUndecodable(images, detect)
    decreases |images|
  {
    if |images| > 0 {
      CollectFailsIffUndecodable(images[1..], detect);
      if SomeUndecodable(images[1..], detect) {
        var k :| 0 <= k < |images| - 1 && DetectAt(images[1..], detect, k).Undecodable?;
        assert DetectAt(images, detect, k + 1).Undecodable?;
      }
      if SomeUndecodable(images, detect) && !DetectAt(images, detect, 0).Undecodable? {
        var k :| 0 <= k < |images| && DetectAt(images, detect, k).Undecodable?;
        assert DetectAt(images[1..], detect, k - 1).Undecodable?;
      }
    }
  }

  /** When the loop finishes, it has collected one embedding per frame in
      which a face was found, in upload order; none means no face anywhere. */
  lemma {:induction false} CollectKeepsFaces(images: seq<string>, detect: string -> Recognition.Detection)
    requires Collect(images, detect).Embedded?
    ensures var es := Collect(images, detect).embeddings;
      && (|es| == 0 <==> forall i :: 0 <= i < |images| ==> DetectAt(images, detect, i) == Recognition.NoFace)
      && (forall e :: e in es ==> exists i :: 0 <= i < |images| && DetectAt(images, detect, i) == Recognition.Face(e))
    decreases |images|
  {
    if |images| > 0 {
      var es := Collect(images, detect).embeddings;
      var rest := Collect(images[1..], detect);
      assert rest.Embedded?;
      CollectKeepsFaces(images[1..], detect);
      forall j | 0 <= j < |images| - 1
        ensures DetectAt(images[1..], detect, j) == DetectAt(images, detect, j + 1)
      {
      }
      if DetectAt(images, detect, 0).NoFace? {
        assert es == rest.embeddings;
        if |es| == 0 {
          forall i | 1 <= i < |images|
            ensures DetectAt(images, detect, i) == Recognition.NoFace
          {
            assert DetectAt(images[1..], detect, i - 1) == Recognition.NoFace;
          }
        }
      } else {
        assert DetectAt(images, detect, 0).Face?;
        assert es[0] == DetectAt(images, detect, 0).embedding;
      }
      forall e | e in es
        ensures exists i :: 0 <= i < |images| && DetectAt(images, detect, i) == Recognition.Face(e)
      {
        if DetectAt(images, detect, 0) != Recognition.Face(e) {
          assert e in rest.embeddings;
          var k :| 0 <= k < |images| - 1 && DetectAt(images[1..], detect, k) == Recognition.Face(e);
          assert DetectAt(images, detect, k + 1) == Recognition.Face(e);
        }
      }
    }
  }

  /** When the loop finishes, its list is exactly the embeddings of the
      frames in which a face was found, one per such frame, in upload order. */
  lemma {:induction false} CollectEmbedsEveryFace(images: seq<string>, detect: string -> Recognition.Detection)
    requires Collect(images, detect).Embedded?
    ensures Collect(images, detect).embeddings == Faces(Detections(images, detect))
    decreases |images|
  {
    if |images| > 0 {
      var d := DetectAt(images, detect, 0);
      CollectEmbedsEveryFace(images[1..], detect);
      assert Detections(images, detect) == [d] + Detections(images[1..], detect);
      FacesAppend([d], Detections(images[1..], detect));
      assert Faces([d]) == Faces([]) + (if d.Face? then [d.embedding] else []);
    }
  }

  /** `api_register()`; `mean` stands for `np.mean(embeddings, axis=0)`. */
  function RegisterApi(name: Option<string>, regNo: Option<string>, images: Option<seq<string>>,
                       detect: string -> Recognition.Detection,
                       mean: seq<Recognition.Embedding> -> Recognition.Embedding,
                       dataset: Dataset): (r: Outcome)
    ensures !Complete(name, regNo, images) ==> r == Outcome(MissingData, dataset)
    ensures Complete(name, regNo, images) ==>
      && regNo.value in r.dataset
      && r.dataset.Keys == dataset.Keys + {regNo.value}
      && (forall k :: k in dataset && k != regNo.value ==> r.dataset[k] == dataset[k])
    ensures r.reply.status == "success" <==>
      Complete(name, regNo, images)
      && Collect(images.value, detect).Embedded?
      && |Collect(images.value, detect).embeddings| > 0
    ensures r.reply.status == "success" ==>
      && r.reply.code == 200
      && r.reply.message == "Registered " + name.value + "!"
      && r.dataset[regNo.value] == Folder(Some(mean(Collect(images.value, detect).embeddings)), Some(name.value + "," + regNo.value))
    ensures r.reply.status != "success" && Complete(name, regNo, images) ==>
      && 400 <= r.reply.code
      && r.dataset[regNo.value] == (if regNo.value in dataset then dataset[regNo.value] else Folder(None, None))
    ensures Complete(name, regNo, images) && Collect(images.value, detect).Failed? ==>
      r.reply == Reply(500, "error", Collect(images.value, detect).reason)
    ensures Complete(name, regNo, images) && Collect(images.value, detect) == Embedded([]) ==> r.reply == NoFaces
  {
    if !Complete(name, regNo, images) then Outcome(MissingData, dataset)
    else
      var reg := regNo.value;
      var created := if reg in dataset then dataset else dataset[reg := Folder(None, None)];
      match Collect(images.value, detect)
      case Failed(reason) => Outcome(Reply(500, "error", reason), created)
      case Embedded(es) =>
        if |es| == 0 then Outcome(NoFaces, created)
        else
          var folder := Folder(Some(mean(es)), Some(name.value + "," + reg));
          Outcome(Reply(200, "success", "Registered " + name.value + "!"), created[reg := folder])
  }

  /** After a successful registration, reloading the roster finds the
      student under their registration number with the name they gave,
      provided the name holds no comma; a name with a comma comes back cut. */
  lemma RegisteredStudentReloads(name: string, regNo: string, images: seq<string>,
                                 detect: string -> Recognition.Detection,
                                 mean: seq<Recognition.Embedding> -> Recognition.Embedding,
                                 dataset: Dataset)
    requires RegisterApi(Some(name), Some(regNo), Some(images), detect, mean, dataset).reply.status == "success"
    ensures var f := RegisterApi(Some(name), Some(regNo), Some(images), detect, mean, dataset).dataset[regNo];
      && Recognition.Loadable(Recognition.Entry(regNo, true, f.embedding, f.info))
      && (TextFields.FirstField(f.info.value) == name <==> ',' !in name)
  {
    var f := RegisterApi(Some(name), Some(regNo), Some(images), detect, mean, dataset).dataset[regNo];
    if ',' in name {
      TextFields.CommaInHeaderIsCut(name, regNo);
    } else {
      TextFields.JoinThenSplit(name, regNo);
    }
  }
}

=== FILE: stitching.dfy ===
/** `stitch_model()` (app.py): when the model file is missing, find
    `<model>.part*`, sort the names, and write their contents one after
    another into the model file. Together with `split_file` it is meant to
    be a split/join round trip. */
module Stitching {
  import opened Base
  import opened Chunking
  import LexOrder

  /** `os.path.join("models", '20180402-114759-vggface2.pt')`. */
  const ModelPath := "models/20180402-114759-vggface2.pt"

  predicate StartsWith(s: string, prefix: string) {
    |prefix| <= |s| && s[..|prefix|] == prefix
  }

  /** `glob.glob(f"{model_path}.part*")` over a directory listing. */
  function Glob(path: string, listing: seq<Part>): (found: seq<Part>)
    ensures |found| <= |listing|
    ensures forall p :: p in found <==> p in listing && StartsWith(p.name, path + ".part")
    ensures (forall i :: 0 <= i < |listing| ==> StartsWith(listing[i].name, path + ".part")) ==> found == listing
  {
    if |listing| == 0 then []
    else (if StartsWith(listing[0].name, path + ".part") then [listing[0]] else []) + Glob(path, listing[1..])
  }

  // --- sorted(): a selection sort on part names --------------------------------

  predicate SortedByName(ps: seq<Part>) {
    forall i, j :: 0 <= i < j < |ps| ==> LexOrder.LessEq(ps[i].name, ps[j].name)
  }

  predicate StrictlySortedByName(ps: seq<Part>) {
    forall i, j :: 0 <= i < j < |ps| ==> LexOrder.Less(ps[i].name, ps[j].name)
  }

  /** Position of a part with the least name. */
  function MinNameIndex(ps: seq<Part>): (m: nat)
    requires |ps| > 0
    ensures m < |ps|
    ensures forall j :: 0 <= j < |ps| ==> LexOrder.LessEq(ps[m].name, ps[j].name)
  {
    if |ps| == 1 then 0
    else
      var k := MinNameIndex(ps[1..]);
      LexOrder.LessIrreflexive(ps[0].name);
      if LexOrder.LessEq(ps[0].name, ps[k + 1].name) then
        assert forall j :: 1 <= j < |ps| ==> LexOrder.LessEq(ps[0].name, ps[j].name) by {
          forall j | 1 <= j < |ps|
            ensures LexOrder.LessEq(ps[0].name, ps[j].name)
          {
            assert ps[j] == ps[1..][j - 1];
            if ps[0].name != ps[k + 1].name && ps[k + 1].name != ps[j].name {
              LexOrder.LessTransitive(ps[0].name, ps[k + 1].name, ps[j].name);
            }
          }
        }
        0
      else
        LexOrder.LessTotal(ps[0].name, ps[k + 1].name);
        assert forall j :: 1 <= j < |ps| ==> ps[j] == ps[1..][j - 1];
        k + 1
  }

  /** Python's `sorted()` on the part names. */
  function SortByName(ps: seq<Part>): (r: seq<Part>)
    ensures |r| == |ps|
    decreases |ps|
  {
    if |ps| == 0 then []
    else
      var m := MinNameIndex(ps);
      [ps[m]] + SortByName(ps[..m] + ps[m + 1..])
  }

  /** Taking one part out of a sequence takes it out of its multiset. */
  lemma RemoveAt(ps: seq<Part>, m: nat)
    requires m < |ps|
    ensures multiset(ps) == multiset{ps[m]} + multiset(ps[..m] + ps[m + 1..])
  {
    assert ps == ps[..m] + [ps[m]] + ps[m + 1..];
    assert multiset(ps) == multiset(ps[..m]) + multiset{ps[m]} + multiset(ps[m + 1..]);
  }

  /** The sort returns the same parts. */
  lemma {:induction false} SortByNamePermutes(ps: seq<Part>)
    ensures multiset(SortByName(ps)) == multiset(ps)
    decreases |ps|
  {
    if |ps| > 0 {
      var m := MinNameIndex(ps);
      var rest := ps[..m] + ps[m + 1..];
      SortByNamePermutes(rest);
      assert SortByName(ps) == [ps[m]] + SortByName(rest);
      RemoveAt(ps, m);
    }
  }

  /** A part whose name is no later than any other stays so against the parts left once it is taken out. */
  lemma LeastPrecedesRest(ps: seq<Part>, m: nat)
    requires m < |ps|
    requires forall j :: 0 <= j < |ps| ==> LexOrder.LessEq(ps[m].name, ps[j].name)
    ensures forall x: Part :: x in multiset(ps[..m] + ps[m + 1..]) ==> LexOrder.LessEq(ps[m].name, x.name)
  {
    var rest := ps[..m] + ps[m + 1..];
    forall x: Part | x in multiset(rest)
      ensures LexOrder.LessEq(ps[m].name, x.name)
    {
      assert x in rest;
      var i :| 0 <= i < |rest| && rest[i] == x;
      var k := if i < m then i else i + 1;
      assert rest[i] == ps[k];
    }
  }

  /** A name no later than every name of a sorted sequence can go in front of it. */
  lemma ConsSorted(a: Part, tail: seq<Part>)
    requires SortedByName(tail)
    requires forall j :: 0 <= j < |tail| ==> LexOrder.LessEq(a.name, tail[j].name)
    ensures SortedByName([a] + tail)
  {
    var r := [a] + tail;
    forall i, j | 0 <= i < j < |r|
      ensures LexOrder.LessEq(r[i].name, r[j].name)
    {
      assert r[j] == tail[j - 1];
      if i > 0 {
        assert r[i] == tail[i - 1];
      }
    }
  }

  /** The sort orders the parts by name. */
  lemma {:induction false} SortByNameOrders(ps: seq<Part>)
    ensures SortedByName(SortByName(ps))
    decreases |ps|
  {
    if |ps| > 0 {
      var m := MinNameIndex(ps);
      var rest := ps[..m] + ps[m + 1..];
      var tail := SortByName(rest);
      assert SortedByName(tail) by {
        SortByNameOrders(rest);
      }
      assert forall j :: 0 <= j < |tail| ==> LexOrder.LessEq(ps[m].name, tail[j].name) by {
        SortByNamePermutes(rest);
        LeastPrecedesRest(ps, m);
        forall j | 0 <= j < |tail|
          ensures LexOrder.LessEq(ps[m].name, tail[j].name)
        {
          assert tail[j] in multiset(tail);
        }
      }
      ConsSorted(ps[m], tail);
      assert SortByName(ps) == [ps[m]] + tail;
    }
  }

  /** A strictly ordered sequence is the only ordered arrangement of its parts. */
  lemma {:induction false} SortedArrangementUnique(a: seq<Part>, b: seq<Part>)
    requires StrictlySortedByName(a) && SortedByName(b)
    requires multiset(a) == multiset(b)
    ensures a == b
    decreases |a|
  {
    assert |a| == |multiset(a)| == |b|;
    if |a| > 0 {
      SameLeast(a, b);
      TailsSameParts(a, b);
      assert StrictlySortedByName(a[1..]);
      assert SortedByName(b[1..]);
      SortedArrangementUnique(a[1..], b[1..]);
      assert a == [a[0]] + a[1..] && b == [b[0]] + b[1..];
    }
  }

  /** Both arrangements start with the same, least, part. */
  lemma SameLeast(a: seq<Part>, b: seq<Part>)
    requires StrictlySortedByName(a) && SortedByName(b)
    requires multiset(a) == multiset(b)
    requires |a| > 0
    ensures |b| > 0 && a[0] == b[0]
  {
    assert a[0] in multiset(b);
    var k :| 0 <= k < |b| && b[k] == a[0];
    assert b[0] in multiset(a);
    var j :| 0 <= j < |a| && a[j] == b[0];
    if k != 0 && j != 0 {
      assert LexOrder.LessEq(b[0].name, a[0].name);
      assert LexOrder.Less(a[0].name, b[0].name);
      LexOrder.LessIrreflexive(a[0].name);
      LexOrder.LessAsymmetric(a[0].name, b[0].name);
    }
  }

  /** Removing an equal first part leaves the same parts. */
  lemma TailsSameParts(a: seq<Part>, b: seq<Part>)
    requires |a| > 0 && |b| > 0 && a[0] == b[0]
    requires multiset(a) == multiset(b)
    ensures multiset(a[1..]) == multiset(b[1..])
  {
    assert a == [a[0]] + a[1..];
    assert b == [b[0]] + b[1..];
    assert multiset(a) == multiset{a[0]} + multiset(a[1..]);
    assert multiset(b) == multiset{b[0]} + multiset(b[1..]);
    assert multiset(a[1..]) == multiset(a) - multiset{a[0]};
    assert multiset(b[1..]) == multiset(b) - multiset{b[0]};
  }

  // --- stitch_model as written ---------------------------------------------

  /** The bytes `stitch_model` writes to the model file, or None when it
      writes nothing (the model exists, or no part was found). */
  function StitchModel(path: string, modelExists: bool, listing: seq<Part>): (out: Option<seq<byte>>)
    ensures modelExists ==> out == None
    ensures !modelExists ==> (out == None <==> forall p :: p in listing ==> !StartsWith(p.name, path + ".part"))
    ensures out.Some? ==> exists ps :: multiset(ps) == multiset(Glob(path, listing)) && SortedByName(ps) && out == Some(Join(ps))
  {
    if modelExists then None
    else
      var parts := Glob(path, listing);
      if |parts| == 0 then None
      else
        assert parts[0] in parts;
        SortByNamePermutes(parts);
        SortByNameOrders(parts);
        Some(Join(SortByName(parts)))
  }

  /** With at most nine parts every name ends in one digit, so name order
      is part-number order. */
  lemma FewPartsInNameOrder(path: string, data: seq<byte>, chunkSize: int)
    requires chunkSize > 0
    requires |Chunks(data, chunkSize)| <= 9
    ensures StrictlySortedByName(SplitFile(path, Some(data), chunkSize))
  {
    var parts := SplitFile(path, Some(data), chunkSize);
    forall i, j | 0 <= i < j < |parts|
      ensures LexOrder.Less(parts[i].name, parts[j].name)
    {
      assert NatToString(i + 1) == [DigitChar(i + 1)];
      assert NatToString(j + 1) == [DigitChar(j + 1)];
      LexOrder.LessCommonPrefix(path + ".part", [DigitChar(i + 1)], [DigitChar(j + 1)]);
    }
  }

  /** Split then stitch, in whatever order the directory lists the parts
      and whatever other files it holds, restores a non-empty file of at
      most nine chunks. */
  lemma SplitThenStitch(path: string, data: seq<byte>, chunkSize: int, listing: seq<Part>)
    requires chunkSize > 0
    requires 0 < |data| <= 9 * chunkSize
    requires multiset(Glob(path, listing)) == multiset(SplitFile(path, Some(data), chunkSize))
    ensures StitchModel(path, false, listing) == Some(data)
  {
    var parts := SplitFile(path, Some(data), chunkSize);
    var found := Glob(path, listing);
    NineChunksAtMost(data, chunkSize);
    SortedGlobIsParts(path, data, chunkSize, listing);
    assert StitchModel(path, false, listing) == Some(Join(parts)) by {
      StitchFound(path, listing);
    }
    SplitThenJoin(path, data, chunkSize);
  }

  /** When the glob finds some part, the stitch writes the sorted parts. */
  lemma StitchFound(path: string, listing: seq<Part>)
    requires |Glob(path, listing)| > 0
    ensures StitchModel(path, false, listing) == Some(Join(SortByName(Glob(path, listing))))
  {
  }

  /** A non-empty file of at most nine chunk sizes is cut into one to nine chunks. */
  lemma NineChunksAtMost(data: seq<byte>, chunkSize: int)
    requires chunkSize > 0
    requires 0 < |data| <= 9 * chunkSize
    ensures 1 <= |Chunks(data, chunkSize)| <= 9
  {
    ChunkCount(data, chunkSize);
  }

  /** With at most nine parts, sorting the globbed names puts the parts back
      in part-number order. */
  lemma SortedGlobIsParts(path: string, data: seq<byte>, chunkSize: int, listing: seq<Part>)
    requires chunkSize > 0
    requires |Chunks(data, chunkSize)| <= 9
    requires multiset(Glob(path, listing)) == multiset(SplitFile(path, Some(data), chunkSize))
    ensures SortByName(Glob(path, listing)) == SplitFile(path, Some(data), chunkSize)
  {
    var parts := SplitFile(path, Some(data), chunkSize);
    var found := Glob(path, listing);
    FewPartsInNameOrder(path, data, chunkSize);
    SortByNamePermutes(found);
    SortByNameOrders(found);
    SortedArrangementUnique(parts, SortByName(found));
  }

  /** The bytes 0..9, which a chunk size of one cuts into ten parts. */
  const TenBytes: seq<byte> := [0, 1, 2, 3, 4, 5, 6, 7, 8, 9]

  /** Cutting TenBytes one byte at a time writes `.part1` .. `.part10`,
      part k holding byte k - 1. */
  lemma TenOneByteParts(path: string)
    ensures var parts := SplitFile(path, Some(TenBytes), 1);
      && |parts| == 10
      && forall i :: 0 <= i < 10 ==> parts[i] == Part(PartName(path, i + 1), [i])
  {
    OneByteChunks(TenBytes);
    var parts := SplitFile(path, Some(TenBytes), 1);
    forall i | 0 <= i < 10
      ensures parts[i] == Part(PartName(path, i + 1), [i])
    {
      assert TenBytes[i] == i;
    }
  }

  /** A chunk size of one cuts a file into its single bytes. */
  lemma {:induction false} OneByteChunks(data: seq<byte>)
    ensures |Chunks(data, 1)| == |data|
    ensures forall i :: 0 <= i < |data| ==> Chunks(data, 1)[i] == [data[i]]
    decreases |data|
  {
    if |data| > 1 {
      OneByteChunks(data[1..]);
      assert Chunks(data, 1) == [data[..1]] + Chunks(data[1..], 1);
    }
  }

  /** `.part1` sorts before every other part and `.part10` before `.part2` .. `.part9`. */
  lemma PartTenSortsEarly(path: string)
    ensures forall j :: 2 <= j <= 10 ==> LexOrder.Less(PartName(path, 1), PartName(path, j))
    ensures forall j :: 2 <= j <= 9 ==> LexOrder.Less(PartName(path, 10), PartName(path, j))
  {
    var pre := path + ".part";
    assert NatToString(10) == ['1', '0'];
    assert LexOrder.Less(['1'], ['1', '0']);
    forall j | 2 <= j <= 10
      ensures LexOrder.Less(PartName(path, 1), PartName(path, j))
    {
      LexOrder.LessCommonPrefix(pre, NatToString(1), NatToString(j));
    }
    forall j | 2 <= j <= 9
      ensures LexOrder.Less(PartName(path, 10), PartName(path, j))
    {
      LexOrder.LessCommonPrefix(pre, NatToString(10), NatToString(j));
    }
  }

  /** A part whose name is below every other name is the one the sort picks first. */
  lemma LeastNameFirst(ps: seq<Part>, i: nat)
    requires i < |ps|
    requires forall j :: 0 <= j < |ps| && j != i ==> LexOrder.Less(ps[i].name, ps[j].name)
    ensures SortByName(ps)[0] == ps[i]
    ensures SortByName(ps)[1..] == SortByName(ps[..i] + ps[i + 1..])
  {
    var m := MinNameIndex(ps);
    assert LexOrder.LessEq(ps[m].name, ps[i].name);
    if m != i {
      if ps[m].name == ps[i].name {
        LexOrder.LessIrreflexive(ps[i].name);
      } else {
        LexOrder.LessAsymmetric(ps[i].name, ps[m].name);
      }
      assert false;
    }
    assert SortByName(ps) == [ps[m]] + SortByName(ps[..m] + ps[m + 1..]);
  }

  /** Among the ten parts, `.part1` has the least name and `.part10` the
      least of the rest. */
  lemma TenPartsNameOrder(path: string)
    ensures var parts := SplitFile(path, Some(TenBytes), 1);
      && |parts| == 10
      && (forall j :: 1 <= j < 10 ==> LexOrder.Less(parts[0].name, parts[j].name))
      && (forall j :: 1 <= j < 9 ==> LexOrder.Less(parts[9].name, parts[j].name))
  {
    TenOneByteParts(path);
    PartTenSortsEarly(path);
  }

  /** A split's parts all match the pattern `stitch_model` globs for. */
  lemma SplitPartsGlobbed(path: string, file: Option<seq<byte>>, chunkSize: int)
    ensures Glob(path, SplitFile(path, file, chunkSize)) == SplitFile(path, file, chunkSize)
  {
    var parts := SplitFile(path, file, chunkSize);
    forall i | 0 <= i < |parts|
      ensures StartsWith(parts[i].name, path + ".part")
    {
      PartNameMatchesGlob(path, i + 1);
    }
  }

  /** When the first part has the least name and the last part the least
      of the rest, the sort puts them first and second. */
  lemma FirstAndLastSortFirst(parts: seq<Part>)
    requires |parts| >= 3
    requires forall j :: 1 <= j < |parts| ==> LexOrder.Less(parts[0].name, parts[j].name)
    requires forall j :: 1 <= j < |parts| - 1 ==> LexOrder.Less(parts[|parts| - 1].name, parts[j].name)
    ensures SortByName(parts)[0] == parts[0]
    ensures SortByName(parts)[1] == parts[|parts| - 1]
  {
    var rest := parts[1..];
    var last := parts[|parts| - 1];
    assert SortByName(parts) == [parts[0]] + SortByName(rest) by {
      LeastNameFirstZero(parts);
    }
    assert SortByName(rest)[0] == last by {
      LastLeastInTail(parts);
      RestLeastNameFirst(rest);
      assert rest[|rest| - 1] == last;
    }
    SecondOfCons(SortByName(parts), parts[0], SortByName(rest), last);
  }

  /** The second element of a cons is the head of its tail. */
  lemma SecondOfCons<T>(s: seq<T>, a: T, t: seq<T>, b: T)
    requires s == [a] + t && |t| >= 1 && t[0] == b
    ensures s[0] == a && s[1] == b
  {
  }

  /** The sort of a sequence whose first part has the least name is that
      part followed by the sort of the others. */
  lemma LeastNameFirstZero(ps: seq<Part>)
    requires |ps| >= 1
    requires forall j :: 1 <= j < |ps| ==> LexOrder.Less(ps[0].name, ps[j].name)
    ensures SortByName(ps) == [ps[0]] + SortByName(ps[1..])
  {
    LeastNameFirst(ps, 0);
    assert ps[..0] + ps[1..] == ps[1..];
  }

  /** Dropping the first part keeps the last part's name ahead of the middle ones. */
  lemma LastLeastInTail(parts: seq<Part>)
    requires |parts| >= 3
    requires forall j :: 1 <= j < |parts| - 1 ==> LexOrder.Less(parts[|parts| - 1].name, parts[j].name)
    ensures var rest := parts[1..];
      forall j :: 0 <= j < |rest| - 1 ==> LexOrder.Less(rest[|rest| - 1].name, rest[j].name)
  {
    var rest := parts[1..];
    forall j | 0 <= j < |rest| - 1
      ensures LexOrder.Less(rest[|rest| - 1].name, rest[j].name)
    {
      assert rest[j] == parts[j + 1];
      assert rest[|rest| - 1] == parts[|parts| - 1];
    }
  }

  lemma RestLeastNameFirst(rest: seq<Part>)
    requires |rest| >= 2
    requires forall j :: 0 <= j < |rest| - 1 ==> LexOrder.Less(rest[|rest| - 1].name, rest[j].name)
    ensures SortByName(rest)[0] == rest[|rest| - 1]
  {
    LeastNameFirst(rest, |rest| - 1);
  }

  /** The second byte written is the first byte of the second part when the
      first part holds one byte. */
  lemma JoinSecondByte(parts: seq<Part>)
    requires |parts| >= 2 && |parts[0].data| == 1 && |parts[1].data| >= 1
    ensures |Join(parts)| >= 2 && Join(parts)[1] == parts[1].data[0]
  {
    assert Join(parts) == parts[0].data + (parts[1].data + Join(parts[2..]));
  }

  /** Ten one-byte parts come back out of order: `.part10` sorts right
      after `.part1`, so the second byte written is the tenth. */
  lemma TenPartsMisordered(path: string)
    ensures var out := StitchModel(path, false, SplitFile(path, Some(TenBytes), 1));
      && out.Some? && |out.value| >= 2
      && out.value[1] == 9 != TenBytes[1]
  {
    var parts := SplitFile(path, Some(TenBytes), 1);
    TenOneByteParts(path);
    TenPartsNameOrder(path);
    SplitPartsGlobbed(path, Some(TenBytes), 1);
    FirstAndLastSortFirst(parts);
    JoinSecondByte(SortByName(parts));
  }

  /** Every part name matches the `.part*` pattern. */
  lemma PartNameMatchesGlob(path: string, k: nat)
    ensures StartsWith(PartName(path, k), path + ".part")
  {
    assert (path + ".part" + NatToString(k))[..|path + ".part"|] == path + ".part";
  }

  // --- stitching in part-number order ---------------------------------------

  /** The contents of the first listed file called `name`. */
  function FindPart(listing: seq<Part>, name: string): (r: Option<seq<byte>>)
    ensures r.None? <==> forall i :: 0 <= i < |listing| ==> listing[i].name != name
    ensures r.Some? ==> exists i :: 0 <= i < |listing| && listing[i] == Part(name, r.value)
  {
    if |listing| == 0 then None
    else if listing[0].name == name then Some(listing[0].data)
    else
      var r := FindPart(listing[1..], name);
      assert forall i :: 1 <= i < |listing| ==> listing[i] == listing[1..][i - 1];
      r
  }

  /** Contents of `.part<k>`, `.part<k+1>`, ... up to the first missing number. */
  function GatherParts(path: string, listing: seq<Part>, k: nat): seq<seq<byte>>
    requires k >= 1
    decreases |listing| + 1 - k
  {
    if k > |listing| then []
    else match FindPart(listing, PartName(path, k))
      case None => []
      case Some(d) => [d] + GatherParts(path, listing, k + 1)
  }

  /** `stitch_model` with the parts opened by number, `.part1`, `.part2`, ...,
      instead of by sorted name. */
  function StitchInOrder(path: string, modelExists: bool, listing: seq<Part>): (out: Option<seq<byte>>)
    ensures modelExists ==> out == None
    ensures !modelExists ==> (out == None <==> forall i :: 0 <= i < |listing| ==> listing[i].name != PartName(path, 1))
  {
    if modelExists then None
    else
      var chunks := GatherParts(path, listing, 1);
      if |chunks| == 0 then None else Some(Flatten(chunks))
  }

  /** Part names differ exactly when their numbers do. */
  lemma PartNameInjective(path: string, a: nat, b: nat)
    requires PartName(path, a) == PartName(path, b)
    ensures a == b
  {
    var pre := path + ".part";
    assert PartName(path, a)[|pre|..] == NatToString(a);
    assert PartName(path, b)[|pre|..] == NatToString(b);
    NatToStringInjective(a, b);
  }

  /** In any listing whose glob finds exactly the split parts, `.part<k>` is the k-th part. */
  lemma FindSplitPart(path: string, parts: seq<Part>, listing: seq<Part>, k: nat)
    requires 1 <= k <= |parts|
    requires forall i :: 0 <= i < |parts| ==> parts[i].name == PartName(path, i + 1)
    requires multiset(Glob(path, listing)) == multiset(parts)
    ensures FindPart(listing, PartName(path, k)) == Some(parts[k - 1].data)
  {
    assert FindPart(listing, PartName(path, k)).Some? by {
      GlobbedIsListed(path, listing, parts[k - 1]);
    }
    var found := FindPart(listing, PartName(path, k));
    var i :| 0 <= i < |listing| && listing[i] == Part(PartName(path, k), found.value);
    var j := ListedPartIsSplitPart(path, parts, listing, i, k);
    PartNameInjective(path, j + 1, k);
  }

  /** A part the glob finds is listed. */
  lemma GlobbedIsListed(path: string, listing: seq<Part>, p: Part)
    requires p in multiset(Glob(path, listing))
    ensures exists i :: 0 <= i < |listing| && listing[i] == p
  {
    assert p in Glob(path, listing);
  }

  /** A listed file named `.part<n>` is one of the parts the glob finds. */
  lemma ListedPartIsSplitPart(path: string, parts: seq<Part>, listing: seq<Part>, i: nat, n: nat) returns (j: nat)
    requires i < |listing| && listing[i].name == PartName(path, n)
    requires multiset(Glob(path, listing)) == multiset(parts)
    ensures j < |parts| && parts[j] == listing[i]
  {
    PartNameMatchesGlob(path, n);
    assert listing[i] in Glob(path, listing);
    assert listing[i] in multiset(parts);
    j :| 0 <= j < |parts| && parts[j] == listing[i];
  }

  /** No listed file is called `.part<n+1>` when the glob finds exactly the n split parts. */
  lemma NoPartPastLast(path: string, parts: seq<Part>, listing: seq<Part>)
    requires forall i :: 0 <= i < |parts| ==> parts[i].name == PartName(path, i + 1)
    requires multiset(Glob(path, listing)) == multiset(parts)
    ensures FindPart(listing, PartName(path, |parts| + 1)) == None
  {
    var k := |parts| + 1;
    if FindPart(listing, PartName(path, k)).Some? {
      var found := FindPart(listing, PartName(path, k));
      var i :| 0 <= i < |listing| && listing[i] == Part(PartName(path, k), found.value);
      var j := ListedPartIsSplitPart(path, parts, listing, i, k);
      PartNameInjective(path, j + 1, k);
      assert false;
    }
  }

  /** Gathering from part k on a listing of split parts yields chunks k-1 onwards. */
  lemma {:induction false} GatherSplitParts(path: string, parts: seq<Part>, listing: seq<Part>, chunks: seq<seq<byte>>, k: nat)
    requires 1 <= k <= |parts| + 1
    requires |parts| == |chunks|
    requires forall i :: 0 <= i < |parts| ==> parts[i] == Part(PartName(path, i + 1), chunks[i])
    requires multiset(Glob(path, listing)) == multiset(parts)
    ensures GatherParts(path, listing, k) == chunks[k - 1..]
    decreases |parts| + 1 - k
  {
    if k <= |parts| {
      GatherSplitPart(path, parts, listing, chunks, k);
      GatherSplitParts(path, parts, listing, chunks, k + 1);
      SliceCons(chunks, k - 1);
    } else {
      GatherPastSplitParts(path, parts, listing);
    }
  }

  /** Part k of the split is found and gathering carries on at k + 1. */
  lemma GatherSplitPart(path: string, parts: seq<Part>, listing: seq<Part>, chunks: seq<seq<byte>>, k: nat)
    requires 1 <= k <= |parts|
    requires |parts| == |chunks|
    requires forall i :: 0 <= i < |parts| ==> parts[i] == Part(PartName(path, i + 1), chunks[i])
    requires multiset(Glob(path, listing)) == multiset(parts)
    ensures GatherParts(path, listing, k) == [chunks[k - 1]] + GatherParts(path, listing, k + 1)
  {
    SameLength(Glob(path, listing), parts);
    FindSplitPart(path, parts, listing, k);
    GatherStep(path, listing, k, chunks[k - 1]);
  }

  /** A suffix is its first element followed by the next suffix. */
  lemma SliceCons<T>(s: seq<T>, i: nat)
    requires i < |s|
    ensures s[i..] == [s[i]] + s[i + 1..]
  {
  }

  /** Gathering stops right after the last split part. */
  lemma GatherPastSplitParts(path: string, parts: seq<Part>, listing: seq<Part>)
    requires forall i :: 0 <= i < |parts| ==> parts[i].name == PartName(path, i + 1)
    requires multiset(Glob(path, listing)) == multiset(parts)
    ensures GatherParts(path, listing, |parts| + 1) == []
  {
    var k := |parts| + 1;
    if k <= |listing| {
      NoPartPastLast(path, parts, listing);
      GatherMissing(path, listing, k);
    } else {
      GatherEnd(path, listing, k);
    }
  }

  lemma SameLength(a: seq<Part>, b: seq<Part>)
    requires multiset(a) == multiset(b)
    ensures |a| == |b|
  {
    assert |a| == |multiset(a)|;
    assert |b| == |multiset(b)|;
  }

  /** Part k found: gathering takes it and carries on at k + 1. */
  lemma GatherStep(path: string, listing: seq<Part>, k: nat, d: seq<byte>)
    requires 1 <= k <= |listing|
    requires FindPart(listing, PartName(path, k)) == Some(d)
    ensures GatherParts(path, listing, k) == [d] + GatherParts(path, listing, k + 1)
  {
  }

  /** A missing part number ends the gathering. */
  lemma GatherMissing(path: string, listing: seq<Part>, k: nat)
    requires 1 <= k <= |listing|
    requires FindPart(listing, PartName(path, k)) == None
    ensures GatherParts(path, listing, k) == []
  {
  }

  /** Past the listing's length there is nothing left to gather. */
  lemma GatherEnd(path: string, listing: seq<Part>, k: nat)
    requires 1 <= k && k > |listing|
    ensures GatherParts(path, listing, k) == []
  {
  }

  /** Split then stitch by number restores any non-empty file, however many
      parts it was cut into, in whatever order they are listed and whatever
      other files the directory holds. */
  lemma SplitThenStitchInOrder(path: string, data: seq<byte>, chunkSize: int, listing: seq<Part>)
    requires chunkSize > 0 && |data| > 0
    requires multiset(Glob(path, listing)) == multiset(SplitFile(path, Some(data), chunkSize))
    ensures StitchInOrder(path, false, listing) == Some(data)
  {
    var parts := SplitFile(path, Some(data), chunkSize);
    var chunks := Chunks(data, chunkSize);
    ChunkCount(data, chunkSize);
    GatherSplitParts(path, parts, listing, chunks, 1);
    ChunksConcatenate(data, chunkSize);
  }
}

=== FILE: text_fields.dfy ===
/** The two comma splits of the server: `img_str.split(",", 1)` on a data
    URL (keep what follows the first comma, or the whole string when there
    is none) and `f.read().split(',')[0]` on a student's `info.txt` (keep
    what precedes the first comma). */
module TextFields {
  import opened Base

  /** Position of the first comma of `s`, if any. */
  function CommaIndex(s: string): (r: Option<nat>)
    ensures r.None? <==> ',' !in s
    ensures r.Some? ==> r.value < |s| && s[r.value] == ',' && ',' !in s[..r.value]
  {
    if |s| == 0 then None
    else if s[0] == ',' then Some(0)
    else match CommaIndex(s[1..])
      case None => None
      case Some(i) =>
        assert s[..i + 1] == [s[0]] + s[1..][..i];
        Some(i + 1)
  }

  /** The base64 payload of a data URL: everything after the first comma,
      or the whole string when it has no comma. */
  function StripHeader(s: string): (r: string)
    ensures ',' !in s ==> r == s
    ensures ',' in s ==> |r| < |s| && r == s[|s| - |r|..] && ',' !in s[..|s| - |r| - 1] && s[|s| - |r| - 1] == ','
  {
    match CommaIndex(s)
    case None => s
    case Some(i) => s[i + 1..]
  }

  /** The first field of a comma-separated line (`split(',')[0]`). */
  function FirstField(s: string): (r: string)
    ensures ',' !in r
    ensures ',' !in s ==> r == s
    ensures ',' in s ==> |r| < |s| && r == s[..|r|] && s[|r|] == ','
  {
    match CommaIndex(s)
    case None => s
    case Some(i) => s[..i]
  }

  /** Splitting at the first comma loses nothing but that comma. */
  lemma SplitAtFirstComma(s: string)
    requires ',' in s
    ensures s == FirstField(s) + "," + StripHeader(s)
  {
    var i := CommaIndex(s).value;
    assert s == s[..i] + [s[i]] + s[i + 1..];
  }

  /** Writing `header,payload` with a comma-free header and splitting it
      again gives back both halves; the payload may itself hold commas. */
  lemma JoinThenSplit(header: string, payload: string)
    requires ',' !in header
    ensures FirstField(header + "," + payload) == header
    ensures StripHeader(header + "," + payload) == payload
  {
    var s := header + "," + payload;
    assert s[|header|] == ',';
    assert s[..|header|] == header;
    assert s[|header| + 1..] == payload;
  }

  /** A header that holds a comma is cut short: a name written as
      `name,reg_no` does not read back when the name has a comma. */
  lemma CommaInHeaderIsCut(header: string, payload: string)
    requires ',' in header
    ensures FirstField(header + "," + payload) != header
  {
    var s := header + "," + payload;
    var j :| 0 <= j < |header| && header[j] == ',';
    assert s[j] == ',';
  }
}
